=== FILE: README.md ===
# Invoice PDF layout engine — a Dafny model

This project models the layout and pagination engine of the invoice
application. The engine walks one invoice record from top to bottom and
produces a fixed-size (US Letter, 612 × 792 points) document of one or more
pages. It models:

- **Page helpers**:
  - the page and logo-box constants;
  - scaling a logo into a 140 × 100 box while keeping its aspect ratio;
  - the pagination check, which starts a new page when the cursor comes within
    the bottom buffer;
  - the width estimate, which counts UTF-16 code units as JavaScript's
    `length` does;
  - text fitting, which lowers the font size one point at a time down to an
    8-point floor.
- **Image embedder front end**: recognising `data:image/` URLs, splitting out
  the format and payload with JavaScript `split` semantics, case-insensitive
  format dispatch, and every failure ending in "no image".
- **Template 2 composer**: the header (logo, title, sender block), billing
  block, items table, totals block (conditional discount/tax/shipping rows),
  optional payment block (bank transfer or Stellar), contact block and
  optional signature. A `(page, y)` cursor is threaded through every section,
  each draw is recorded with the page it lands on, and the finished document
  is the per-page grouping of that draw stream.
- **Currency grouping of the currency selector**: fetched currencies are split
  into the priority codes (USD, CLP, ARS, MXN, BRL, in that order) and all
  others sorted by code. On a failed fetch, only the priority codes are
  offered.

Modules:
- `Base`: option type, JavaScript truthiness of optional strings, `Join`,
  `Min`/`Max`.
- `Pdf`: draw records, pages, and the per-page grouping of a draw stream.
- `PageHelper`, `ImageHelper`: the two helper files.
- `Invoice`: the invoice record.
- `Template2`: the composer.
- `Template2Scenarios`: whole-document consequences.
- `Sorting`, `Currencies`: the currency grouping.

Foreign code is passed in as parameters (the `Services` record of
`Template2`, the `Embedder` of `ImageHelper`):
- pdf-lib's `widthOfTextAtSize`;
- `formatNumberWithCommas`;
- JavaScript number-to-string conversion;
- the `isDataUrl` test;
- base64 decoding together with `embedPng`/`embedJpg`.

The currency fetch enters as its outcome (`FetchOutcome`).

Behaviour of the code worth noting:
- Fitting empty text keeps the start size, because a zero width always fits.
- In the billing block, the invoice date is drawn half a line under "Bill to:"
  and the due date on the receiver name's baseline, not beside the address
  lines.
- A text signature is drawn in regular Helvetica at 24 points. The
  signature's `fontFamily` is never read by this template.

## Model

| member | source | states |
|---|---|---|
| PageHelper.CalculateLogoDimensions | services/invoice/server/templates/pageHelper.ts:18-37 | the scaled logo lies inside the 140 × 100 box with its aspect ratio kept and one side at the box limit; it is full width exactly when 140·h ≤ 100·w; the reserved size is the logo size plus 20 on each axis |
| PageHelper.LogoScalingDependsOnlyOnAspect | services/invoice/server/templates/pageHelper.ts:18-37 | two logos with the same aspect ratio are scaled to the same size |
| PageHelper.LogoScalingIsIdempotent | services/invoice/server/templates/pageHelper.ts:18-37 | scaling an already scaled logo again leaves its size unchanged |
| PageHelper.CheckForNewPage | services/invoice/server/templates/pageHelper.ts:39-53 | a new page is started exactly when y is below margin + 50, and the cursor then sits at the top margin; otherwise the cursor is unchanged; for the template's margin, y ends at or above margin + 50 |
| PageHelper.CheckForNewPageIsIdempotent | services/invoice/server/templates/pageHelper.ts:39-53 | a second check right after a first one never starts another page |
| PageHelper.GetContentWidth | services/invoice/server/templates/pageHelper.ts:56-59 | the estimate is non-negative for non-negative sizes and is zero exactly for empty text or size zero |
| PageHelper.Utf16Length | services/invoice/server/templates/pageHelper.ts:58 | `text.length` counts one code unit per character of the Basic Multilingual Plane and two per other character, so it lies between the character count and twice it |
| PageHelper.Utf16LengthCountsSurrogates | services/invoice/server/templates/pageHelper.ts:58 | the length equals the character count exactly when no character lies outside the Basic Multilingual Plane, and twice it exactly when every character does |
| PageHelper.ContentWidthCountsCodeUnits | services/invoice/server/templates/pageHelper.ts:56-59 | the estimate is never below 0.6 · size per character, and equals it exactly for size zero or text inside the Basic Multilingual Plane |
| PageHelper.ContentWidthIsMonotone | services/invoice/server/templates/pageHelper.ts:56-59 | a larger font size never gives a smaller estimate |
| PageHelper.FitContentToPage | services/invoice/server/templates/pageHelper.ts:62-76 | the text comes back unaltered; the size is the start size when that is at most 8, otherwise the largest size not above the start whose estimate fits, and 8 when nothing above 8 fits |
| PageHelper.FittedSizeIsUnique | services/invoice/server/templates/pageHelper.ts:62-76 | any size that meets the fitting contract is the size fitting returns |
| PageHelper.FloorReachedWhenFloorOverflows | services/invoice/server/templates/pageHelper.ts:67-70 | text too wide even at 8 points shrinks exactly to 8 |
| PageHelper.FitIsIdempotent | services/invoice/server/templates/pageHelper.ts:62-76 | fitting again from the fitted size keeps that size |
| PageHelper.EmptyTextKeepsStartSize | services/invoice/server/templates/pageHelper.ts:62-76 | empty text keeps its start size, whatever the start |
| PageHelper.AstralCharactersCountTwice | services/invoice/server/templates/pageHelper.ts:56-76 | thirty emoji count as sixty code units, so at 12 points in a 246-point column they shrink to the 8-point floor |
| ImageHelper.SecondField | services/invoice/server/templates/imageHelper.ts:15-16 | `split(c)[1]` is undefined exactly when the separator is absent, and never contains the separator |
| ImageHelper.SecondFieldOfJoin | services/invoice/server/templates/imageHelper.ts:15-16 | splitting text built from separator-free fields returns the first and second fields |
| ImageHelper.BeforeFirst | services/invoice/server/templates/imageHelper.ts:15 | `split(c)[0]`: the text before the first separator, or all of it when there is none; it never contains the separator |
| ImageHelper.FormatOf | services/invoice/server/templates/imageHelper.ts:15 | the format is missing exactly when the part before the first `;` has no `/`; when present it contains neither `/` nor `;` |
| ImageHelper.PayloadOf | services/invoice/server/templates/imageHelper.ts:16 | the payload is missing exactly when the URL has no `,`; when present it contains no `,` |
| ImageHelper.ToLowerIsIdempotent | services/invoice/server/templates/imageHelper.ts:20 | lower-casing twice equals lower-casing once |
| ImageHelper.FormatFor | services/invoice/server/templates/imageHelper.ts:20-31 | the format is JPEG exactly when its lower-case form is "jpeg" or "jpg", and PNG exactly when it is "png" |
| ImageHelper.FormatMatchIgnoresCase | services/invoice/server/templates/imageHelper.ts:20-31 | formats that differ only in letter case dispatch the same way |
| ImageHelper.LoweredFormatDispatchesAlike | services/invoice/server/templates/imageHelper.ts:20 | a format already lower-cased dispatches exactly as the original |
| ImageHelper.PrefixedUrlHasFormat | services/invoice/server/templates/imageHelper.ts:11-15 | once the prefix test passes, the format segment always exists |
| ImageHelper.EmbedImageFromDataUrl | services/invoice/server/templates/imageHelper.ts:9-38 | no image without the prefix, without a payload, or with an unsupported format; with all three present, the result is exactly what the backend returns for the dispatched format and the payload |
| ImageHelper.EmbedDataUrlRoundTrip | services/invoice/server/templates/imageHelper.ts:9-38 | for a browser-style data URL built from a format and a payload, the embedder hands exactly that format and payload to the backend |
| Pdf.PaginateKeepsDrawOrder | services/invoice/server/templates/pageHelper.ts:41-46 | when draws go page by page onto existing pages, reading the pages in order gives every draw exactly once, in issue order |
| Template2.TableColumns | services/invoice/server/templates/template2.ts:180-185 | the columns sit at x = 50, 306, 382 and 459, strictly left to right |
| Template2.LogoImage | services/invoice/server/templates/template2.ts:32-34 | there is no logo when the logo field is absent or empty; otherwise there is one exactly when the data URL embeds, and it is the embedded image |
| Template2.LogoSpace | services/invoice/server/templates/template2.ts:32-36 | the logo space is all zero without a logo, and otherwise the scaled logo size; its height and reserved height are bounded by the box |
| Template2.LogoOps | services/invoice/server/templates/template2.ts:33-46 | an embedded logo is drawn once, on the first page, at its scaled size, with its right edge on the right margin and its top edge on the top margin |
| Template2.AddressX | services/invoice/server/templates/template2.ts:97-102 | an address line never reaches past the right margin nor into the logo's reserved box, and it touches one of the two |
| Template2.AddressOps | services/invoice/server/templates/template2.ts:97-112 | line i of the address is drawn one line height below line i−1, at its aligned x, on the first page |
| Template2.TitleOps | services/invoice/server/templates/template2.ts:48-87 | on the left margin of the first page: the bold title on the top margin, the invoice number in 12-point regular 25 points below it, and the bold sender name 60 points below it; title and name sizes meet the fitting contract |
| Template2.SenderAddress | services/invoice/server/templates/template2.ts:89-112 | the three address lines, in 12-point regular at the `Math.min` position of their measured width, start 25 points under the logo's reserved box (or under the top margin without a logo) and step down one line each |
| Template2.ContentStart | services/invoice/server/templates/template2.ts:115-116 | the body starts at or below both the 150-point header band and 50 points under the logo's reserved box, and on one of the two |
| Template2.Header | services/invoice/server/templates/template2.ts:31-116 | the header is the logo, the title block and the sender address, in that order, all on page 0; the body starts max(150, reserved logo height + 50) points below the top margin, so below both the 150-point band and the logo box; every header text is above the page floor |
| Template2.Billing | services/invoice/server/templates/template2.ts:118-175 | on the left margin, "Bill to:" two lines under the cursor and the receiver name 1.5 lines lower, both 14-point bold, then the address and the city/country lines in 12-point regular one line apart; on the right, bold date labels 200 points and regular values 100 points in from the right margin, the invoice date half a line under "Bill to:" and the due date on the name's baseline; the cursor ends 6.5 lines down on the same page |
| Template2.ValueLine | services/invoice/server/templates/template2.ts:209-245 | the line a row's quantity, rate and total go on is on a later page than the row's start or not above it, and never below the page floor |
| Template2.ItemRow | services/invoice/server/templates/template2.ts:209-281 | one row: the fitted name at the checked cursor, the fitted description on the checked line below only when it is non-empty, then quantity, rate and the total right-aligned in a 100-point slot on the value line, and a rule one line under it; the next row starts 1.5 lines under the value line; every text is above the page floor, on pages in order |
| Template2.RowStarts | services/invoice/server/templates/template2.ts:209-272 | row 0 starts at the cursor after the headers, and row i+1 starts 1.5 lines under row i's value line |
| Template2.ItemRows | services/invoice/server/templates/template2.ts:209-281 | block i of the table draws item i from the i-th row start, for every item, in order, and the table ends at the last row start |
| Template2.TableHead | services/invoice/server/templates/template2.ts:186-205 | the four headers sit in bold on one baseline at their columns, with a full-width rule half a line below |
| Template2.ItemsTable | services/invoice/server/templates/template2.ts:177-281 | the headers sit 4 lines below the billing block, followed by the item blocks from 1.5 lines under the headers |
| Template2.DrawRows | services/invoice/server/templates/template2.ts:310-328 | the first label is at the checked cursor and each next label at the checked cursor one line under the previous one, with its value on the same baseline at or above the floor; the block ends one line under the last label |
| Template2.ChargeText | services/invoice/server/templates/template2.ts:291-305 | a percentage charge shows its number followed by `%`; an amount shows the formatted number |
| Template2.ChargeRows | services/invoice/server/templates/template2.ts:289-306 | one row per applicable charge, each showing its own entry, in the order discount, tax, shipping; each charge row is present exactly when its entry is present and nonzero |
| Template2.TotalsRows | services/invoice/server/templates/template2.ts:287-308 | 2 + (number of applicable charges) rows; Subtotal first and Total last, with only Total carrying the currency code; the charge rows between them come in the order discount, tax, shipping, each present exactly when its entry is present and nonzero, and show a percentage or a formatted amount according to its kind |
| Template2.TotalsSection | services/invoice/server/templates/template2.ts:283-328 | the totals rows are stacked from the checked cursor two lines under the table, each above the page floor |
| Template2.PaymentRows | services/invoice/server/templates/template2.ts:344-393 | bank transfer gives bank, account name and account number; Stellar gives network, public key, the memo only when it is non-empty, and currency |
| Template2.PaymentSection | services/invoice/server/templates/template2.ts:330-394 | nothing is drawn without payment information; otherwise a 14-point bold heading on the left margin at the checked cursor two lines down, then the payment rows stacked from one line under it |
| Template2.DrawLines | services/invoice/server/templates/template2.ts:408-419 | the first line is at the checked cursor and each next line at the checked cursor one line under the previous one, every one above the floor |
| Template2.ContactSection | services/invoice/server/templates/template2.ts:396-419 | a 12-point bold heading on the left margin at the checked cursor two lines down, then e-mail and phone in 12-point regular on the left margin, stacked from one line under it |
| Template2.PlaceSignatureImage | services/invoice/server/templates/template2.ts:438-452 | the signature image is 120 points wide with its aspect ratio kept; a new page is started exactly when it would come within 20 points of the bottom margin; it hangs below the cursor |
| Template2.SignatureMark | services/invoice/server/templates/template2.ts:435-462 | a non-data-URL signature is drawn as 24-point text on the cursor, which stays put; a data URL gives the placed image on the page the placement chose, with the cursor where the placement left it, or nothing (cursor unchanged) when it does not embed |
| Template2.SignatureSection | services/invoice/server/templates/template2.ts:421-463 | nothing is drawn without signature data; otherwise a 12-point bold label at the checked cursor two lines down, above the floor, with the mark one line below it; an image lands on the page its placement chose and the section ends where the placement left the cursor, otherwise one line under the label |
| Template2.DrawRowsWithoutBreak | services/invoice/server/templates/template2.ts:310-328 | rows whose last baseline fits stay on the starting page: row i sits i lines under the start |
| Template2.DrawLinesWithoutBreak | services/invoice/server/templates/template2.ts:408-419 | contact lines whose last baseline fits stay on the starting page: line i sits i lines under the start |
| Template2.RowStartsWithoutBreak | services/invoice/server/templates/template2.ts:209-281 | for undescribed items whose last row fits, row i starts 1.5·i lines under the start on the starting page |
| Template2.ItemRowsWithoutBreak | services/invoice/server/templates/template2.ts:209-281 | undescribed items whose last row fits take 1.5 lines each on the starting page, with name, quantity, rate and total of row i on that row's baseline |
| Template2.ItemRowsAdvance | services/invoice/server/templates/template2.ts:209-281 | every item row either moves down at least 1.5 lines or starts a later page |
| Template2.TotalsWithoutBreak | services/invoice/server/templates/template2.ts:283-328 | the totals block stays on its page when its last row fits |
| Template2.ContactWithoutBreak | services/invoice/server/templates/template2.ts:396-419 | the contact block stays on its page when its last line fits |
| Template2.ComposeBody | services/invoice/server/templates/template2.ts:31-419 | from header to contact block, draws are issued in page order and every text sits at or above the page floor |
| Template2.Compose | services/invoice/server/templates/template2.ts:17-466 | the whole stream is in page order from page 0; every text below the floor is the text signature in 24-point regular on the left margin, and none is more than one line below the floor |
| Template2.GenerateTemplate2 | services/invoice/server/templates/template2.ts:17-466 | the document has one page per page started; page p holds exactly the draws issued on page p, in issue order; every draw lands on one of its pages; and reading it page by page gives every draw once, in issue order |
| Template2Scenarios.ShortInvoiceFitsOnOnePage | services/invoice/server/templates/template2.ts:17-466 | up to five undescribed items with any charges, no payment block and no signature fit on one page, with or without a logo |
| Template2Scenarios.ShortItemTableEndsHigh | services/invoice/server/templates/template2.ts:31-281 | with at most five undescribed items, header, billing block and items table end on the first page, no more than 170 points plus 19.5 lines under the top margin |
| Template2Scenarios.LongItemListSpillsOver | services/invoice/server/templates/template2.ts:209-281 | thirty items cannot fit on one page |
| Sorting.SortBy | hooks/useCurrencies.tsx:42-48 | the result is ordered by the comparison and is a permutation of the input |
| Sorting.SortedByIsPairwise | hooks/useCurrencies.tsx:42-48 | for a transitive comparison, neighbour order gives the order of every pair |
| Sorting.SortByKeepsSorted | hooks/useCurrencies.tsx:42-48 | sorting a list already in order returns it unchanged |
| Currencies.PriorityIndex | hooks/useCurrencies.tsx:43 | `indexOf` is −1 exactly for non-priority codes, otherwise the first position of the code |
| Currencies.LexLeIsTotal | hooks/useCurrencies.tsx:48 | code comparison orders any two codes one way or the other |
| Currencies.LexLeIsTransitive | hooks/useCurrencies.tsx:48 | code comparison is transitive |
| Currencies.Keep | hooks/useCurrencies.tsx:40-47 | the filter keeps exactly the entries whose priority status is the one asked for |
| Currencies.KeepSplitsList | hooks/useCurrencies.tsx:40-47 | the two filters together keep every fetched entry exactly once |
| Currencies.GroupCurrencies | hooks/useCurrencies.tsx:32-50 | popular holds exactly the fetched priority currencies, ordered by priority index; all holds exactly the others, ordered by code; together they are a permutation of the fetched list |
| Currencies.GroupsAreDisjoint | hooks/useCurrencies.tsx:40-47 | no currency is in both groups |
| Currencies.FallbackGroups | hooks/useCurrencies.tsx:51-59 | on failure, the five priority codes are offered in order, each named by its code, and nothing else |
| Currencies.FallbackIsGroupingOfPriorityCodes | hooks/useCurrencies.tsx:32-59 | the fallback is exactly the grouping of a fetch that returned the five priority codes, each named by its code |
| Currencies.FetchCurrencies | hooks/useCurrencies.tsx:23-63 | after a fetch, popular holds exactly the fetched priority currencies in priority order and all the others in code order, each entry in exactly one group; after a failure, the five priority codes in order, each named by its code, and nothing else |

## Left out

- Colours, line thickness and `console` logging carry no layout content and are dropped.
- pdf-lib itself is not modelled: document creation, font embedding, the page objects and the output bytes. A page is the list of draws issued on it.
- Glyph metrics (`widthOfTextAtSize`), `formatNumberWithCommas`, number-to-string conversion and `isDataUrl` live outside the core and are uninterpreted parameters.
- Base64 decoding and PNG/JPEG decoding are one uninterpreted `Embedder` that may fail; a decoded image always has positive pixel dimensions.
- PageHelper.CalculateLogoDimensions: takes only positive dimensions. A zero or negative logo size (division by zero, NaN or Infinity in JavaScript) cannot come out of the embedder.
- Coordinates are exact reals. IEEE rounding, NaN and Infinity are not modelled, so a charge amount is "applicable" when it is present and nonzero (NaN is not represented).
- Font sizes are integers: every call site passes an integer literal, and fitting lowers the size by 1.
- ImageHelper.ToLower: maps ASCII letters only. JavaScript's full Unicode case mapping is not modelled; it cannot turn any other character into a letter of "jpeg", "jpg" or "png".
- Currencies.LexLe: models `localeCompare` as code-point order. This agrees with the locale order on the upper-case ASCII codes the service returns, but not on arbitrary strings.
- Sorting.SortBy: stability is not stated. The fetched codes are distinct object keys, so neither comparison ever sees a tie between different entries.
- The currency fetch (network, JSON decoding, `Object.entries`) enters as its outcome. The React state and the loading flag are not modelled.
- The invoice record keeps the charge kind and amount under one name for discount, tax and shipping. The source reads `amount`/`amountType` for discount and tax and `cost`/`costType` for shipping.
- Template2.PlaceSignatureImage: the source has no check after the forced page break, and the model states only where the image goes. A signature image with height/width above 5.6 still comes within 20 points of the bottom margin on the fresh page. Above 742/120 (about 6.18) it extends below the page's bottom edge.

=== FILE: base.dfy ===
/** Shared vocabulary of the model: optional values, JavaScript truthiness of
    optional strings, flattening of nested sequences, and Math.min / Math.max. */
module Base {

  /** An optional value; `None` stands for JavaScript's `undefined` / `null`. */
  datatype Option<+T> = None | Some(value: T)

  /** JavaScript truthiness of an optional string field: present and non-empty. */
  predicate Truthy(s: Option<string>) {
    s.Some? && s.value != ""
  }

  /** The concatenation of a sequence of sequences, in order. */
  function Join<T>(ss: seq<seq<T>>): seq<T> {
    if ss == [] then [] else ss[0] + Join(ss[1..])
  }

  /** Joining the blocks [a] + rest yields a followed by the joined rest. */
  lemma JoinCons<T>(a: seq<T>, rest: seq<seq<T>>)
    ensures Join([a] + rest) == a + Join(rest)
  {
    assert ([a] + rest)[1..] == rest;
  }

  /** `Math.max` on two numbers. */
  function Max(a: real, b: real): (m: real)
    ensures m >= a && m >= b
    ensures m == a || m == b
  {
    if a >= b then a else b
  }

  /** `Math.min` on two numbers. */
  function Min(a: real, b: real): (m: real)
    ensures m <= a && m <= b
    ensures m == a || m == b
  {
    if a <= b then a else b
  }
}

=== FILE: currencies.dfy ===
/** The grouping rule of the currency selector: fetched currencies are split
    into the priority currencies, in priority order, and all the others,
    sorted by code; when fetching fails only the priority codes are offered.
    The fetch itself is not modelled: its outcome is an input. */
module Currencies {
  import opened Sorting

  datatype Currency = Currency(code: string, name: string)

  datatype CurrencyGroups = CurrencyGroups(popular: seq<Currency>, all: seq<Currency>)

  const PriorityCurrencies: seq<string> := ["USD", "CLP", "ARS", "MXN", "BRL"]

  predicate IsPriority(code: string) {
    code in PriorityCurrencies
  }

  /** `PRIORITY_CURRENCIES.indexOf(code)`: the position, or -1 when absent. */
  function PriorityIndex(code: string): (r: int)
    ensures -1 <= r < |PriorityCurrencies|
    ensures r == -1 <==> !IsPriority(code)
    ensures r >= 0 ==> PriorityCurrencies[r] == code
    ensures forall j | 0 <= j < r :: PriorityCurrencies[j] != code
  {
    if code == "USD" then 0
    else if code == "CLP" then 1
    else if code == "ARS" then 2
    else if code == "MXN" then 3
    else if code == "BRL" then 4
    else -1
  }

  // ------------------------------------------------------ code comparison

  /** Code-point lexicographic order on strings. */
  predicate LexLe(a: string, b: string) {
    a == [] || (b != [] && (a[0] < b[0] || (a[0] == b[0] && LexLe(a[1..], b[1..]))))
  }

  lemma {:induction false} LexLeIsTotal(a: string, b: string)
    ensures LexLe(a, b) || LexLe(b, a)
  {
    if a != [] && b != [] && a[0] == b[0] {
      LexLeIsTotal(a[1..], b[1..]);
    }
  }

  lemma {:induction false} LexLeIsTransitive(a: string, b: string, c: string)
    requires LexLe(a, b) && LexLe(b, c)
    ensures LexLe(a, c)
  {
    if a != [] && b != [] && c != [] && a[0] == b[0] && b[0] == c[0] {
      LexLeIsTransitive(a[1..], b[1..], c[1..]);
    }
  }

  predicate ByPriority(a: Currency, b: Currency) {
    PriorityIndex(a.code) <= PriorityIndex(b.code)
  }

  predicate ByCode(a: Currency, b: Currency) {
    LexLe(a.code, b.code)
  }

  lemma ByCodeIsTotalOrder()
    ensures Total(ByCode) && Transitive(ByCode)
  {
    forall a: Currency, b: Currency ensures ByCode(a, b) || ByCode(b, a) {
      LexLeIsTotal(a.code, b.code);
    }
    forall a: Currency, b: Currency, c: Currency | ByCode(a, b) && ByCode(b, c)
      ensures ByCode(a, c)
    {
      LexLeIsTransitive(a.code, b.code, c.code);
    }
  }

  // ------------------------------------------------------------- grouping

  /** `currencyArray.filter(...)` keeping the priority (or the other) codes. */
  function Keep(s: seq<Currency>, priority: bool): (r: seq<Currency>)
    ensures forall c :: c in r <==> c in s && IsPriority(c.code) == priority
  {
    if s == [] then []
    else
      assert s == [s[0]] + s[1..];
      (if IsPriority(s[0].code) == priority then [s[0]] else []) + Keep(s[1..], priority)
  }

  /** The two filters together keep every fetched entry exactly once. */
  lemma {:induction false} KeepSplitsList(s: seq<Currency>)
    ensures multiset(Keep(s, true)) + multiset(Keep(s, false)) == multiset(s)
  {
    if s != [] {
      assert s == [s[0]] + s[1..];
      KeepSplitsList(s[1..]);
    }
  }

  /** Splits the fetched currencies into the popular and the remaining group. */
  function GroupCurrencies(fetched: seq<Currency>): (g: CurrencyGroups)
    ensures forall c :: c in g.popular <==> c in fetched && IsPriority(c.code)
    ensures forall c :: c in g.all <==> c in fetched && !IsPriority(c.code)
    ensures multiset(g.popular) + multiset(g.all) == multiset(fetched)
    ensures forall i, j | 0 <= i < j < |g.popular| ::
              PriorityIndex(g.popular[i].code) <= PriorityIndex(g.popular[j].code)
    ensures forall i, j | 0 <= i < j < |g.all| :: LexLe(g.all[i].code, g.all[j].code)
  {
    ByCodeIsTotalOrder();
    KeepSplitsList(fetched);
    var popular := SortBy(Keep(fetched, true), ByPriority);
    var all := SortBy(Keep(fetched, false), ByCode);
    assert forall c :: c in popular <==> c in multiset(popular);
    assert forall c :: c in all <==> c in multiset(all);
    SortedByIsPairwise(popular, ByPriority);
    SortedByIsPairwise(all, ByCode);
    CurrencyGroups(popular, all)
  }

  /** No currency is offered in both groups. */
  lemma GroupsAreDisjoint(fetched: seq<Currency>)
    ensures var g := GroupCurrencies(fetched);
            forall c :: !(c in g.popular && c in g.all)
  {
  }

  /** What the selector offers when the fetch fails: the priority codes, in
      order, each named by its code, and nothing else. */
  function FallbackGroups(): (g: CurrencyGroups)
    ensures |g.popular| == |PriorityCurrencies|
    ensures forall i | 0 <= i < |g.popular| ::
              g.popular[i] == Currency(PriorityCurrencies[i], PriorityCurrencies[i])
    ensures g.all == []
  {
    var popular := seq(|PriorityCurrencies|, i requires 0 <= i < |PriorityCurrencies| =>
                       Currency(PriorityCurrencies[i], PriorityCurrencies[i]));
    CurrencyGroups(popular, [])
  }

  /** A filter that keeps every entry returns the list unchanged, and the
      opposite filter returns nothing. */
  lemma {:induction false} KeepAll(s: seq<Currency>, priority: bool)
    requires forall i | 0 <= i < |s| :: IsPriority(s[i].code) == priority
    ensures Keep(s, priority) == s
    ensures Keep(s, !priority) == []
  {
    if s != [] {
      KeepAll(s[1..], priority);
    }
  }

  /** The fallback is exactly what a fetch returning only the priority
      currencies, each named by its code, would be grouped into. */
  lemma FallbackIsGroupingOfPriorityCodes()
    ensures GroupCurrencies(FallbackGroups().popular) == FallbackGroups()
  {
    var p := FallbackGroups().popular;
    assert forall i | 0 <= i < |p| :: PriorityIndex(p[i].code) == i;
    KeepAll(p, true);
    SortByKeepsSorted(p, ByPriority);
  }

  /** The outcome of the currency fetch: the code/name entries of the
      decoded body, or a failure (a network error, a body that is not JSON,
      or a null body, on which `Object.entries` throws).  A body that decodes
      to a number or a boolean arrives as `Fetched([])`, a string body as one
      entry per character, and an HTTP error response with a JSON body as the
      entries of that body. */
  datatype FetchOutcome = Fetched(entries: seq<Currency>) | FetchFailed

  /** The groups the hook stores after the fetch settles: after a fetch, the
      fetched priority currencies in priority order and the others in code
      order, each entry in exactly one group; after a failure, the five
      priority codes in order, each named by its code, and nothing else. */
  function FetchCurrencies(outcome: FetchOutcome): (g: CurrencyGroups)
    ensures outcome.Fetched? ==>
              && (forall c :: c in g.popular <==> c in outcome.entries && IsPriority(c.code))
              && (forall c :: c in g.all <==> c in outcome.entries && !IsPriority(c.code))
              && multiset(g.popular) + multiset(g.all) == multiset(outcome.entries)
              && (forall i, j | 0 <= i < j < |g.popular| ::
                    PriorityIndex(g.popular[i].code) <= PriorityIndex(g.popular[j].code))
              && (forall i, j | 0 <= i < j < |g.all| :: LexLe(g.all[i].code, g.all[j].code))
    ensures outcome.FetchFailed? ==>
              && |g.popular| == |PriorityCurrencies|
              && (forall i | 0 <= i < |g.popular| ::
                    g.popular[i] == Currency(PriorityCurrencies[i], PriorityCurrencies[i]))
              && g.all == []
  {
    match outcome
    case Fetched(entries) => GroupCurrencies(entries)
    case FetchFailed => FallbackGroups()
  }
}

=== FILE: image_helper.dfy ===
/** The image embedder front end: recognises an image data URL, splits out the
    declared format and the payload the way JavaScript's String.split does, and
    dispatches to the PNG or JPEG embedder.  Decoding the base64 payload and
    embedding the bytes belong to the backend and are one possibly failing
    oracle here. */
module ImageHelper {
  import opened Base
  import opened Pdf

  /** Base64 decoding plus pdf-lib's embedPng / embedJpg: None when either
      throws. */
  type Embedder = (ImageFormat, string) -> Option<EmbeddedImage>

  const DataImagePrefix: string := "data:image/"

  predicate StartsWith(s: string, prefix: string) {
    |prefix| <= |s| && s[..|prefix|] == prefix
  }

  // ------------------------------------------------------------ string split

  /** The index of the first occurrence of `c` in `s`, if any. */
  function IndexOf(s: string, c: char): (r: Option<nat>)
    ensures r.None? <==> c !in s
    ensures r.Some? ==> r.value < |s| && s[r.value] == c && c !in s[..r.value]
  {
    if s == [] then None
    else if s[0] == c then Some(0)
    else match IndexOf(s[1..], c)
      case None => None
      case Some(i) =>
        assert s[..i + 1] == [s[0]] + s[1..][..i];
        Some(i + 1)
  }

  /** `s.split(c)[0]`: everything before the first `c`, or all of `s`. */
  function BeforeFirst(s: string, c: char): (r: string)
    ensures c !in r
    ensures c !in s ==> r == s
    ensures c in s ==> |r| < |s| && s[..|r|] == r && s[|r|] == c
  {
    match IndexOf(s, c)
    case None => s
    case Some(i) => s[..i]
  }

  /** `s.split(c)[1]`: the text between the first and the second `c` (or the
      end of `s`); undefined when `s` holds no `c`. */
  function SecondField(s: string, c: char): (r: Option<string>)
    ensures r.None? <==> c !in s
    ensures r.Some? ==> c !in r.value
  {
    match IndexOf(s, c)
    case None => None
    case Some(i) => Some(BeforeFirst(s[i + 1..], c))
  }

  /** Splitting text built from separator-free fields recovers the second field. */
  lemma {:induction false} SecondFieldOfJoin(a: string, b: string, tail: string, c: char)
    requires c !in a && c !in b
    requires tail == [] || tail[0] == c
    ensures SecondField(a + [c] + b + tail, c) == Some(b)
    ensures BeforeFirst(a + [c] + b + tail, c) == a
  {
    var s := a + [c] + b + tail;
    IndexOfAfterFree(a, [c] + b + tail, c);
    assert s == a + ([c] + b + tail);
    assert IndexOf(s, c) == Some(|a|);
    assert s[|a| + 1..] == b + tail;
    if tail == [] {
      assert b + tail == b;
    } else {
      IndexOfAfterFree(b, tail, c);
      assert s[..|a|] == a;
    }
  }

  /** The first `c` of a + t, when a holds none, is the first `c` of t, shifted. */
  lemma {:induction false} IndexOfAfterFree(a: string, t: string, c: char)
    requires c !in a && t != [] && t[0] == c
    ensures IndexOf(a + t, c) == Some(|a|)
  {
    if a != [] {
      assert (a + t)[1..] == a[1..] + t;
      IndexOfAfterFree(a[1..], t, c);
    }
  }

  // ------------------------------------------------------------- lower case

  /** `toLowerCase` on one character; only ASCII letters are mapped. */
  function LowerChar(ch: char): char {
    if 'A' <= ch <= 'Z' then (ch as int - 'A' as int + 'a' as int) as char else ch
  }

  function ToLower(s: string): (r: string)
    ensures |r| == |s|
    ensures forall i | 0 <= i < |s| :: r[i] == LowerChar(s[i])
  {
    seq(|s|, i requires 0 <= i < |s| => LowerChar(s[i]))
  }

  /** Lower-casing twice is lower-casing once. */
  lemma ToLowerIsIdempotent(s: string)
    ensures ToLower(ToLower(s)) == ToLower(s)
  {
  }

  // --------------------------------------------------------------- dispatch

  /** The `switch (format.toLowerCase())` of the embedder. */
  function FormatFor(format: string): (r: Option<ImageFormat>)
    ensures r == Some(Jpg) <==> ToLower(format) == "jpeg" || ToLower(format) == "jpg"
    ensures r == Some(Png) <==> ToLower(format) == "png"
  {
    var f := ToLower(format);
    if f == "jpeg" || f == "jpg" then Some(Jpg)
    else if f == "png" then Some(Png)
    else None
  }

  /** Format matching ignores letter case. */
  lemma FormatMatchIgnoresCase(a: string, b: string)
    requires ToLower(a) == ToLower(b)
    ensures FormatFor(a) == FormatFor(b)
  {
  }

  /** Lower-casing a format before the dispatch changes nothing. */
  lemma LoweredFormatDispatchesAlike(format: string)
    ensures FormatFor(ToLower(format)) == FormatFor(format)
  {
    ToLowerIsIdempotent(format);
    FormatMatchIgnoresCase(ToLower(format), format);
  }

  /** `dataUrl.split(';')[0].split('/')[1]`: undefined when no '/' comes
      before the first ';', and otherwise free of both separators. */
  function FormatOf(dataUrl: string): (r: Option<string>)
    ensures r.None? <==> '/' !in BeforeFirst(dataUrl, ';')
    ensures r.Some? ==> '/' !in r.value && ';' !in r.value
  {
    var head := BeforeFirst(dataUrl, ';');
    var r := SecondField(head, '/');
    assert r.Some? ==> ';' !in r.value by {
      if r.Some? {
        var i := IndexOf(head, '/').value;
        var tail := head[i + 1..];
        assert ';' !in tail;
        if '/' in tail {
          assert r.value == tail[..|r.value|];
        }
      }
    }
    r
  }

  /** `dataUrl.split(',')[1]`: undefined exactly when there is no ',', and
      otherwise free of commas. */
  function PayloadOf(dataUrl: string): (r: Option<string>)
    ensures r.None? <==> ',' !in dataUrl
    ensures r.Some? ==> ',' !in r.value
  {
    SecondField(dataUrl, ',')
  }

  /** Behind the prefix test, the format segment always exists: the prefix
      holds a '/' and no ';'. */
  lemma PrefixedUrlHasFormat(dataUrl: string)
    requires StartsWith(dataUrl, DataImagePrefix)
    ensures FormatOf(dataUrl).Some?
  {
    assert dataUrl[10] == '/';
    assert ';' !in dataUrl[..11];
    var head := BeforeFirst(dataUrl, ';');
    assert |head| >= 11;
    assert head[10] == '/';
  }

  /** Every failure is None: a string without the image data-URL prefix, a
      missing payload (Buffer.from(undefined) throws), an unsupported format,
      or a backend that cannot decode or embed the bytes. */
  function EmbedImageFromDataUrl(dataUrl: string, embed: Embedder): (r: Option<EmbeddedImage>)
    ensures !StartsWith(dataUrl, DataImagePrefix) ==> r.None?
    ensures PayloadOf(dataUrl).None? ==> r.None?
    ensures r.Some? ==> FormatOf(dataUrl).Some? && FormatFor(FormatOf(dataUrl).value).Some?
    ensures r.Some? ==> r == embed(FormatFor(FormatOf(dataUrl).value).value, PayloadOf(dataUrl).value)
    ensures FormatOf(dataUrl).Some? && FormatFor(FormatOf(dataUrl).value).None? ==> r.None?
    ensures && StartsWith(dataUrl, DataImagePrefix) && PayloadOf(dataUrl).Some?
            && FormatOf(dataUrl).Some? && FormatFor(FormatOf(dataUrl).value).Some? ==>
              r == embed(FormatFor(FormatOf(dataUrl).value).value, PayloadOf(dataUrl).value)
  {
    if !StartsWith(dataUrl, DataImagePrefix) then None
    else
      match (FormatOf(dataUrl), PayloadOf(dataUrl))
      case (Some(format), Some(payload)) =>
        (match FormatFor(format)
         case Some(f) => embed(f, payload)
         case None => None)
      case _ => None
  }

  /** The data URL a browser produces for an image. */
  function MakeDataUrl(format: string, payload: string): string {
    DataImagePrefix + format + ";base64," + payload
  }

  lemma MadeUrlFormat(format: string, payload: string)
    requires '/' !in format && ';' !in format
    ensures FormatOf(MakeDataUrl(format, payload)) == Some(format)
  {
    var url := MakeDataUrl(format, payload);
    var stem := "data:image";
    var head := stem + ['/'] + format;
    assert ';' !in stem && '/' !in stem;
    assert ';' !in head;
    assert url == head + ([';'] + "base64," + payload);
    IndexOfAfterFree(head, [';'] + "base64," + payload, ';');
    assert BeforeFirst(url, ';') == head;
    assert head == stem + ['/'] + format + [];
    SecondFieldOfJoin(stem, format, [], '/');
  }

  lemma MadeUrlPayload(format: string, payload: string)
    requires ',' !in format && ',' !in payload
    ensures PayloadOf(MakeDataUrl(format, payload)) == Some(payload)
  {
    var url := MakeDataUrl(format, payload);
    var before := DataImagePrefix + format + ";base64";
    assert ',' !in DataImagePrefix && ',' !in ";base64";
    assert ',' !in before;
    assert url == before + [','] + payload + [];
    SecondFieldOfJoin(before, payload, [], ',');
  }

  /** For the data URL a browser produces, the embedder recovers the declared
      format and the payload and hands exactly those to the backend. */
  lemma EmbedDataUrlRoundTrip(format: string, payload: string, embed: Embedder)
    requires '/' !in format && ';' !in format && ',' !in format
    requires ',' !in payload
    ensures EmbedImageFromDataUrl(MakeDataUrl(format, payload), embed) ==
              match FormatFor(format)
              case Some(f) => embed(f, payload)
              case None => None
  {
    MadeUrlHasPrefix(format, payload);
    MadeUrlFormat(format, payload);
    MadeUrlPayload(format, payload);
  }

  lemma MadeUrlHasPrefix(format: string, payload: string)
    ensures StartsWith(MakeDataUrl(format, payload), DataImagePrefix)
  {
    var url := MakeDataUrl(format, payload);
    assert url == DataImagePrefix + (format + ";base64," + payload);
    assert url[..|DataImagePrefix|] == DataImagePrefix;
  }
}

=== FILE: invoice.dfy ===
/** The invoice record the PDF template reads.  It arrives already validated;
    optional fields are `Option`s, and the payment details are an explicit sum
    of the two payment kinds the template distinguishes. */
module Invoice {
  import opened Base

  datatype Sender = Sender(
    name: string, address: string, zipCode: string, city: string,
    country: string, email: string, phone: string)

  datatype Receiver = Receiver(
    name: string, address: string, zipCode: string, city: string,
    country: string, email: string)

  /** A line of the items table; the description is optional. */
  datatype LineItem = LineItem(
    name: string, description: Option<string>,
    quantity: real, unitPrice: real, total: real)

  /** The `amountType` / `costType` tag: only 'percentage' is told apart. */
  datatype ChargeKind = Amount | Percentage

  /** A discount, tax or shipping entry: its amount (or cost) and its tag. */
  datatype Charge = Charge(amount: real, kind: ChargeKind)

  datatype PaymentInformation =
    | BankTransfer(bankName: string, accountName: string, accountNumber: string)
    | Stellar(publicKey: string, memo: Option<string>, currency: string)

  /** A signature: a data URL of an image, or literal text.  The font family
      is only read by the HTML template. */
  datatype Signature = Signature(data: string, fontFamily: Option<string>)

  datatype Details = Details(
    invoiceNumber: string, invoiceDate: string, dueDate: string,
    currency: string, invoiceLogo: Option<string>,
    items: seq<LineItem>,
    discountDetails: Option<Charge>, taxDetails: Option<Charge>,
    shippingDetails: Option<Charge>,
    subTotal: real, totalAmount: real,
    paymentInformation: Option<PaymentInformation>,
    signature: Option<Signature>)

  datatype InvoiceRecord = InvoiceRecord(sender: Sender, receiver: Receiver, details: Details)

  /** `entry?.amount` is truthy: the entry is present with a nonzero amount. */
  predicate Applies(c: Option<Charge>) {
    c.Some? && c.value.amount != 0.0
  }

  /** `signature?.data` is truthy. */
  predicate HasSignature(sig: Option<Signature>) {
    sig.Some? && sig.value.data != ""
  }
}

=== FILE: page_helper.dfy ===
/** Geometry helpers of the PDF template: page constants, logo scaling into a
    fixed box, the pagination cursor, and text fitting by font shrink. */
module PageHelper {
  import opened Pdf

  /** US Letter, in points (8.5 x 11 inches). */
  const LetterWidth: real := 612.0
  const LetterHeight: real := 792.0

  /** The box a logo is scaled into, and the padding reserved around it. */
  const MaxLogoWidth: real := 140.0
  const MaxLogoHeight: real := 100.0
  const LogoPadding: real := 20.0

  /** Space kept free above the bottom margin before a new page is started. */
  const BottomBuffer: real := 50.0

  /** The smallest font size text fitting shrinks to. */
  const MinFontSize: int := 8

  // ---------------------------------------------------------------- logo box

  /** Scaled logo size, and the same size grown by the padding on both axes. */
  datatype LogoDimensions = LogoDimensions(width: real, height: real, reservedWidth: real, reservedHeight: real)

  /** Scales a logo to the full box width, then, when that makes it too tall,
      to the full box height instead, keeping its aspect ratio. */
  function CalculateLogoDimensions(logoWidth: Positive, logoHeight: Positive): (d: LogoDimensions)
    ensures 0.0 < d.width <= MaxLogoWidth && 0.0 < d.height <= MaxLogoHeight
    ensures d.width * logoHeight == d.height * logoWidth
    ensures d.width == MaxLogoWidth || d.height == MaxLogoHeight
    ensures d.width == MaxLogoWidth <==> MaxLogoWidth * logoHeight <= MaxLogoHeight * logoWidth
    ensures d.reservedWidth == d.width + LogoPadding && d.reservedHeight == d.height + LogoPadding
  {
    var ratio := logoWidth / logoHeight;
    var widthFitHeight := MaxLogoWidth / ratio;
    AspectArithmetic(logoWidth, logoHeight);
    if widthFitHeight > MaxLogoHeight then
      var w := MaxLogoHeight * ratio;
      LogoDimensions(w, MaxLogoHeight, w + LogoPadding, MaxLogoHeight + LogoPadding)
    else
      LogoDimensions(MaxLogoWidth, widthFitHeight, MaxLogoWidth + LogoPadding, widthFitHeight + LogoPadding)
  }

  /** The arithmetic facts behind both branches of the logo scaling. */
  lemma AspectArithmetic(w: Positive, h: Positive)
    ensures var ratio := w / h;
            var fh := MaxLogoWidth / ratio;
            && ratio > 0.0
            && fh * w == MaxLogoWidth * h
            && (fh > MaxLogoHeight <==> MaxLogoWidth * h > MaxLogoHeight * w)
            && (MaxLogoHeight * ratio) * h == MaxLogoHeight * w
            && (fh > MaxLogoHeight ==> MaxLogoHeight * ratio < MaxLogoWidth)
            && fh > 0.0
  {
    var ratio := w / h;
    var fh := MaxLogoWidth / ratio;
    assert ratio * h == w;
    assert fh * ratio == MaxLogoWidth;
    calc {
      fh * w;
      fh * (ratio * h);
      (fh * ratio) * h;
      MaxLogoWidth * h;
    }
    if fh > MaxLogoHeight {
      assert fh * w > MaxLogoHeight * w;
      assert MaxLogoHeight * ratio < fh * ratio;
    } else {
      assert fh * w <= MaxLogoHeight * w;
    }
  }

  /** Two logos with the same aspect ratio are scaled to the same box. */
  lemma LogoScalingDependsOnlyOnAspect(w1: Positive, h1: Positive, w2: Positive, h2: Positive)
    requires w1 * h2 == w2 * h1
    ensures CalculateLogoDimensions(w1, h1).width == CalculateLogoDimensions(w2, h2).width
    ensures CalculateLogoDimensions(w1, h1).height == CalculateLogoDimensions(w2, h2).height
  {
    var d1, d2 := CalculateLogoDimensions(w1, h1), CalculateLogoDimensions(w2, h2);
    SameAspectSameChoice(w1, h1, w2, h2);
    if d1.width == MaxLogoWidth {
      ScaledSidesAgree(d1.height, w1, h1, d2.height, w2, h2, MaxLogoWidth);
    } else {
      ScaledSidesAgree(d1.width, h1, w1, d2.width, h2, w2, MaxLogoHeight);
    }
  }

  /** The width-first choice is decided by the same comparison for both. */
  lemma SameAspectSameChoice(w1: Positive, h1: Positive, w2: Positive, h2: Positive)
    requires w1 * h2 == w2 * h1
    ensures MaxLogoWidth * h1 <= MaxLogoHeight * w1 <==> MaxLogoWidth * h2 <= MaxLogoHeight * w2
  {
    assert (MaxLogoWidth * h1) * w2 == (MaxLogoWidth * h2) * w1;
    assert (MaxLogoHeight * w1) * w2 == (MaxLogoHeight * w2) * w1;
  }

  /** Two scalings that fix one side to the same value k agree on the other
      side when their aspect ratios agree. */
  lemma ScaledSidesAgree(x1: real, a1: Positive, b1: Positive, x2: real, a2: Positive, b2: Positive, k: real)
    requires a1 * b2 == a2 * b1
    requires x1 * a1 == k * b1 && x2 * a2 == k * b2
    ensures x1 == x2
  {
    assert x1 * (a1 * b2) == k * b1 * b2;
    assert x2 * (a2 * b1) == k * b2 * b1;
    assert (x1 - x2) * (a1 * b2) == 0.0;
  }

  /** Scaling an already scaled logo again changes nothing (a fixed point). */
  lemma LogoScalingIsIdempotent(w: Positive, h: Positive)
    ensures var d := CalculateLogoDimensions(w, h);
            CalculateLogoDimensions(d.width, d.height).width == d.width
            && CalculateLogoDimensions(d.width, d.height).height == d.height
  {
    var d := CalculateLogoDimensions(w, h);
    LogoScalingDependsOnlyOnAspect(w, h, d.width, d.height);
  }

  // ------------------------------------------------------- pagination cursor

  /** Where the next element goes: the index of the current (last) page and
      the baseline offset from the page bottom. */
  datatype Cursor = Cursor(page: nat, y: real)

  /** Starts a new page, with the cursor at the top margin, exactly when the
      cursor has come within the bottom buffer of the bottom margin. */
  function CheckForNewPage(c: Cursor, margin: real): (r: Cursor)
    ensures r.page == c.page + 1 <==> c.y < margin + BottomBuffer
    ensures c.y < margin + BottomBuffer ==> r.y == LetterHeight - margin
    ensures c.y >= margin + BottomBuffer ==> r == c
    ensures r.page >= c.page
    ensures margin <= (LetterHeight - BottomBuffer) / 2.0 ==> r.y >= margin + BottomBuffer
  {
    if c.y < margin + BottomBuffer then Cursor(c.page + 1, LetterHeight - margin) else c
  }

  /** A second check right after a first one never starts another page. */
  lemma CheckForNewPageIsIdempotent(c: Cursor, margin: real)
    requires margin <= (LetterHeight - BottomBuffer) / 2.0
    ensures CheckForNewPage(CheckForNewPage(c, margin), margin) == CheckForNewPage(c, margin)
  {
  }

  // ------------------------------------------------------------ text fitting

  /** A character outside the Basic Multilingual Plane, which UTF-16 stores
      as a surrogate pair. */
  predicate IsAstral(ch: char) {
    ch as int >= 0x1_0000
  }

  /** The positions below n. */
  function Positions(n: nat): (r: set<int>)
    ensures forall i :: i in r <==> 0 <= i < n
  {
    if n == 0 then {} else Positions(n - 1) + {n - 1}
  }

  /** The positions of the astral characters of `s`. */
  function AstralPositions(s: string): set<int> {
    set i | 0 <= i < |s| && IsAstral(s[i])
  }

  lemma {:induction false} PositionsCardinality(n: nat)
    ensures |Positions(n)| == n
  {
    if n > 0 {
      PositionsCardinality(n - 1);
      assert n - 1 !in Positions(n - 1);
    }
  }

  /** A subset is no larger, and only as large when it is the whole set. */
  lemma SubsetCardinality(a: set<int>, b: set<int>)
    requires a <= b
    ensures |a| <= |b|
    ensures |a| == |b| ==> a == b
  {
    var rest := b - a;
    assert b == a + rest && a * rest == {};
    if |rest| == 0 {
      assert rest == {};
    }
  }

  /** JavaScript's `length` of a string: its count of UTF-16 code units, one
      per character plus one more for each astral character. */
  function Utf16Length(s: string): (n: nat)
    ensures |s| <= n <= 2 * |s|
  {
    SubsetCardinality(AstralPositions(s), Positions(|s|));
    PositionsCardinality(|s|);
    |s| + |AstralPositions(s)|
  }

  /** The code-unit count equals the character count exactly when no
      character is astral, and doubles it exactly when every one is. */
  lemma Utf16LengthCountsSurrogates(s: string)
    ensures Utf16Length(s) == |s| <==> forall i | 0 <= i < |s| :: !IsAstral(s[i])
    ensures Utf16Length(s) == 2 * |s| <==> forall i | 0 <= i < |s| :: IsAstral(s[i])
  {
    var astral, all := AstralPositions(s), Positions(|s|);
    SubsetCardinality(astral, all);
    PositionsCardinality(|s|);
    if forall i | 0 <= i < |s| :: !IsAstral(s[i]) {
      assert astral == {};
    } else {
      var i :| 0 <= i < |s| && IsAstral(s[i]);
      assert i in astral;
    }
    if forall i | 0 <= i < |s| :: IsAstral(s[i]) {
      assert astral == all;
    } else {
      var i :| 0 <= i < |s| && !IsAstral(s[i]);
      assert i in all && i !in astral;
    }
  }

  /** The width estimate: 0.6 of the font size per UTF-16 code unit. */
  function GetContentWidth(text: string, fontSize: int): (w: real)
    ensures fontSize >= 0 ==> w >= 0.0
    ensures w == 0.0 <==> text == [] || fontSize == 0
  {
    (Utf16Length(text) as real) * (fontSize as real) * 0.6
  }

  /** Text inside the Basic Multilingual Plane is estimated per character;
      any other text is estimated wider. */
  lemma ContentWidthCountsCodeUnits(text: string, fontSize: nat)
    ensures GetContentWidth(text, fontSize) >= (|text| as real) * (fontSize as real) * 0.6
    ensures GetContentWidth(text, fontSize) == (|text| as real) * (fontSize as real) * 0.6
            <==> fontSize == 0 || forall i | 0 <= i < |text| :: !IsAstral(text[i])
  {
    Utf16LengthCountsSurrogates(text);
    var n, k := Utf16Length(text) as real, fontSize as real;
    assert n * k * 0.6 - (|text| as real) * k * 0.6 == (n - |text| as real) * k * 0.6;
    if fontSize > 0 && n > |text| as real {
      assert (n - |text| as real) * k > 0.0;
    }
  }

  /** The estimate never decreases as the font size grows. */
  lemma ContentWidthIsMonotone(text: string, a: int, b: int)
    requires a <= b
    ensures GetContentWidth(text, a) <= GetContentWidth(text, b)
  {
    var len := Utf16Length(text) as real;
    assert GetContentWidth(text, b) - GetContentWidth(text, a) == len * 0.6 * ((b - a) as real);
  }

  /** The contract of text fitting, independent of how it is computed: the
      result is the start size when that is at most the floor; otherwise it is
      the largest size not above the start whose estimate fits, or the floor
      when no size above the floor fits. */
  ghost predicate IsFittedSize(text: string, maxWidth: real, start: int, size: int) {
    && size <= start
    && (start <= MinFontSize ==> size == start)
    && (start > MinFontSize ==> size >= MinFontSize)
    && (GetContentWidth(text, size) <= maxWidth || size <= MinFontSize)
    && (forall k :: size < k <= start ==> GetContentWidth(text, k) > maxWidth)
  }

  /** The outcome of fitting: the text, which is never altered, and a size. */
  datatype FitResult = FitResult(text: string, fontSize: int)

  /** Lowers the font size one point at a time while the estimate exceeds the
      maximum width and the size is above the floor. */
  function FitContentToPage(text: string, maxWidth: real, fontSize: int): (r: FitResult)
    ensures r.text == text
    ensures IsFittedSize(text, maxWidth, fontSize, r.fontSize)
    decreases fontSize
  {
    if GetContentWidth(text, fontSize) > maxWidth && fontSize > MinFontSize then
      FitContentToPage(text, maxWidth, fontSize - 1)
    else
      FitResult(text, fontSize)
  }

  /** The contract above pins the size down: any size meeting it is the one
      fitting computes. */
  lemma FittedSizeIsUnique(text: string, maxWidth: real, start: int, size: int)
    requires IsFittedSize(text, maxWidth, start, size)
    ensures size == FitContentToPage(text, maxWidth, start).fontSize
  {
  }

  /** When the text does not fit even at the floor, a start size at or above
      the floor shrinks exactly to the floor. */
  lemma FloorReachedWhenFloorOverflows(text: string, maxWidth: real, start: int)
    requires start >= MinFontSize
    requires GetContentWidth(text, MinFontSize) > maxWidth
    ensures FitContentToPage(text, maxWidth, start).fontSize == MinFontSize
  {
    var size := FitContentToPage(text, maxWidth, start).fontSize;
    if size > MinFontSize {
      ContentWidthIsMonotone(text, MinFontSize, size);
    }
  }

  /** Fitting again at the fitted size keeps that size. */
  lemma FitIsIdempotent(text: string, maxWidth: real, start: int)
    ensures var size := FitContentToPage(text, maxWidth, start).fontSize;
            FitContentToPage(text, maxWidth, size).fontSize == size
  {
  }

  /** Text with an empty estimate (no characters) keeps its start size. */
  lemma EmptyTextKeepsStartSize(maxWidth: real, start: int)
    requires maxWidth >= 0.0
    ensures FitContentToPage("", maxWidth, start).fontSize == start
  {
  }

  /** Characters outside the Basic Multilingual Plane count twice: thirty
      emoji are estimated as sixty characters wide, so from 12 points they
      shrink to the floor in a 246-point column. */
  lemma AstralCharactersCountTwice(text: string)
    requires |text| == 30 && forall i | 0 <= i < |text| :: text[i] == '\U{1F600}'
    ensures Utf16Length(text) == 60
    ensures FitContentToPage(text, 246.0, 12).fontSize == MinFontSize
  {
    assert forall i | 0 <= i < |text| :: IsAstral(text[i]);
    Utf16LengthCountsSurrogates(text);
    FloorReachedWhenFloorOverflows(text, 246.0, 12);
  }
}

=== FILE: pdf.dfy ===
/** The document backend as the layout engine sees it.  pdf-lib itself is not
    part of this model: a page is the list of draw records issued on it, a
    drawn element carries the index of the page it was issued on, and an
    embedded raster image is known only by its pixel dimensions. */
module Pdf {
  import opened Base

  /** A strictly positive number (pixel dimensions of a decoded image). */
  type Positive = r: real | r > 0.0 witness 1.0

  /** The two raster formats the backend can embed. */
  datatype ImageFormat = Png | Jpg

  /** An embedded image handle: only its intrinsic dimensions matter to layout. */
  datatype EmbeddedImage = EmbeddedImage(width: Positive, height: Positive)

  /** The two standard fonts the template embeds (Helvetica, Helvetica-Bold). */
  datatype Font = Regular | Bold

  /** One abstract draw call; colours and line thickness carry no layout content. */
  datatype DrawOp =
    | Text(text: string, x: real, y: real, size: int, font: Font)
    | Line(startX: real, startY: real, endX: real, endY: real)
    | Image(image: EmbeddedImage, x: real, y: real, width: real, height: real)

  /** A page is the ordered list of draws issued on it. */
  type Page = seq<DrawOp>

  /** A draw issued on the page with index `page` (0 is the first page). */
  datatype Placed = Placed(page: nat, op: DrawOp)

  /** Draws were issued page by page: never back onto an earlier page. */
  ghost predicate InPageOrder(ops: seq<Placed>) {
    forall i, j | 0 <= i <= j < |ops| :: ops[i].page <= ops[j].page
  }

  /** The draw records of a stream, without their page indices. */
  function Ops(ops: seq<Placed>): (r: seq<DrawOp>)
    ensures |r| == |ops|
    ensures forall i | 0 <= i < |ops| :: r[i] == ops[i].op
  {
    if ops == [] then [] else [ops[0].op] + Ops(ops[1..])
  }

  /** The draws of the stream issued on page `p`, in issue order. */
  function OpsOn(ops: seq<Placed>, p: nat): (r: seq<DrawOp>)
    ensures |r| <= |ops|
  {
    if ops == [] then []
    else (if ops[0].page == p then [ops[0].op] else []) + OpsOn(ops[1..], p)
  }

  /** The finished document of `n` pages: page p holds the draws issued on it. */
  function Paginate(ops: seq<Placed>, n: nat): (pages: seq<Page>)
    ensures |pages| == n
    ensures forall p | 0 <= p < n :: pages[p] == OpsOn(ops, p)
  {
    seq(n, p requires 0 <= p < n => OpsOn(ops, p))
  }

  /** Pages lo .. n-1 of the stream, read one after the other. */
  ghost function PagesFrom(ops: seq<Placed>, lo: nat, n: nat): seq<DrawOp>
    decreases n - lo
  {
    if lo >= n then [] else OpsOn(ops, lo) + PagesFrom(ops, lo + 1, n)
  }

  lemma {:induction false} JoinPaginateIsPagesFrom(ops: seq<Placed>, n: nat, lo: nat)
    requires lo <= n
    ensures Join(Paginate(ops, n)[lo..]) == PagesFrom(ops, lo, n)
    decreases n - lo
  {
    var pages := Paginate(ops, n);
    if lo < n {
      assert pages[lo..] == [pages[lo]] + pages[lo + 1..];
      JoinCons(pages[lo], pages[lo + 1..]);
      JoinPaginateIsPagesFrom(ops, n, lo + 1);
    } else {
      assert pages[lo..] == [];
    }
  }

  lemma {:induction false} NoOpsOnEarlierPage(ops: seq<Placed>, p: nat)
    requires forall i | 0 <= i < |ops| :: p < ops[i].page
    ensures OpsOn(ops, p) == []
  {
    if ops != [] {
      NoOpsOnEarlierPage(ops[1..], p);
    }
  }

  lemma {:induction false} SkipEmptyPages(ops: seq<Placed>, lo: nat, k: nat, n: nat)
    requires lo <= k
    requires forall i | 0 <= i < |ops| :: k <= ops[i].page
    ensures PagesFrom(ops, lo, n) == PagesFrom(ops, k, n)
    decreases k - lo
  {
    if lo < k {
      if lo < n {
        NoOpsOnEarlierPage(ops, lo);
      }
      SkipEmptyPages(ops, lo + 1, k, n);
    }
  }

  lemma {:induction false} DropEarlierOp(o: Placed, rest: seq<Placed>, lo: nat, n: nat)
    requires o.page < lo
    ensures PagesFrom([o] + rest, lo, n) == PagesFrom(rest, lo, n)
    decreases n - lo
  {
    if lo < n {
      assert ([o] + rest)[1..] == rest;
      DropEarlierOp(o, rest, lo + 1, n);
    }
  }

  lemma {:induction false} PagesFromCons(o: Placed, rest: seq<Placed>, n: nat)
    requires o.page < n
    ensures PagesFrom([o] + rest, o.page, n) == [o.op] + PagesFrom(rest, o.page, n)
  {
    var ops, k := [o] + rest, o.page;
    assert ops[1..] == rest;
    DropEarlierOp(o, rest, k + 1, n);
    calc {
      PagesFrom(ops, k, n);
      OpsOn(ops, k) + PagesFrom(ops, k + 1, n);
      [o.op] + OpsOn(rest, k) + PagesFrom(rest, k + 1, n);
      [o.op] + PagesFrom(rest, k, n);
    }
  }

  lemma {:induction false} PagesFromIsStream(ops: seq<Placed>, lo: nat, n: nat)
    requires InPageOrder(ops)
    requires forall i | 0 <= i < |ops| :: lo <= ops[i].page < n
    ensures PagesFrom(ops, lo, n) == Ops(ops)
    decreases |ops|
  {
    if ops == [] {
      EmptyStreamHasEmptyPages(lo, n);
    } else {
      var o, rest := ops[0], ops[1..];
      var k := o.page;
      assert ops == [o] + rest;
      assert forall i | 0 <= i < |ops| :: k <= ops[i].page;
      assert InPageOrder(rest) && forall i | 0 <= i < |rest| :: k <= rest[i].page < n by {
        forall i | 0 <= i < |rest| ensures k <= rest[i].page < n {
          assert rest[i] == ops[i + 1];
        }
      }
      SkipEmptyPages(ops, lo, k, n);
      PagesFromCons(o, rest, n);
      PagesFromIsStream(rest, k, n);
      assert Ops(ops) == [o.op] + Ops(rest);
    }
  }

  lemma {:induction false} EmptyStreamHasEmptyPages(lo: nat, n: nat)
    ensures PagesFrom([], lo, n) == []
    decreases n - lo
  {
    if lo < n {
      EmptyStreamHasEmptyPages(lo + 1, n);
    }
  }

  /** Reading the pages of the finished document one after another gives back
      every draw exactly once, in the order it was issued. */
  lemma PaginateKeepsDrawOrder(ops: seq<Placed>, n: nat)
    requires InPageOrder(ops)
    requires forall i | 0 <= i < |ops| :: ops[i].page < n
    ensures Join(Paginate(ops, n)) == Ops(ops)
  {
    assert Paginate(ops, n)[0..] == Paginate(ops, n);
    JoinPaginateIsPagesFrom(ops, n, 0);
    PagesFromIsStream(ops, 0, n);
  }
}

=== FILE: sorting.dfy ===
/** An insertion sort over a comparison, for the currency lists. */
module Sorting {

  /** Any two elements are comparable one way or the other. */
  ghost predicate Total<T(!new)>(le: (T, T) -> bool) {
    forall a, b :: le(a, b) || le(b, a)
  }

  ghost predicate Transitive<T(!new)>(le: (T, T) -> bool) {
    forall a, b, c :: le(a, b) && le(b, c) ==> le(a, c)
  }

  /** Neighbours are in order. */
  predicate SortedBy<T>(s: seq<T>, le: (T, T) -> bool) {
    forall i | 0 < i < |s| :: le(s[i - 1], s[i])
  }

  /** Inserts x after every trailing element that is not above it. */
  function InsertBy<T(!new)>(s: seq<T>, x: T, le: (T, T) -> bool): (r: seq<T>)
    requires Total(le)
    requires SortedBy(s, le)
    ensures SortedBy(r, le)
    ensures multiset(r) == multiset(s) + multiset{x}
    ensures |r| > 0 && (r[|r| - 1] == x || (|s| > 0 && r[|r| - 1] == s[|s| - 1]))
  {
    if s == [] || le(s[|s| - 1], x) then s + [x]
    else
      var init, last := s[..|s| - 1], s[|s| - 1];
      assert s == init + [last];
      var r := InsertBy(init, x, le) + [last];
      r
  }

  /** Sorts by repeatedly inserting the last element into the sorted rest. */
  function SortBy<T(!new)>(s: seq<T>, le: (T, T) -> bool): (r: seq<T>)
    requires Total(le)
    ensures SortedBy(r, le)
    ensures multiset(r) == multiset(s)
  {
    if s == [] then []
    else
      assert s == s[..|s| - 1] + [s[|s| - 1]];
      InsertBy(SortBy(s[..|s| - 1], le), s[|s| - 1], le)
  }

  /** For a transitive comparison, neighbour order is order of every pair. */
  lemma {:induction false} SortedByIsPairwise<T(!new)>(s: seq<T>, le: (T, T) -> bool)
    requires Transitive(le)
    requires SortedBy(s, le)
    ensures forall i, j | 0 <= i < j < |s| :: le(s[i], s[j])
  {
    if |s| > 1 {
      var init := s[..|s| - 1];
      assert SortedBy(init, le);
      SortedByIsPairwise(init, le);
      forall i, j | 0 <= i < j < |s| ensures le(s[i], s[j]) {
        if j < |s| - 1 {
          assert s[i] == init[i] && s[j] == init[j];
        } else if i < j - 1 {
          assert le(init[i], init[j - 1]);
        }
      }
    }
  }

  /** Dropping the last element keeps a list in order. */
  lemma SortedByInit<T>(s: seq<T>, le: (T, T) -> bool)
    requires |s| > 0 && SortedBy(s, le)
    ensures SortedBy(s[..|s| - 1], le)
  {
    var init := s[..|s| - 1];
    forall i | 0 < i < |init| ensures le(init[i - 1], init[i]) {
      assert init[i - 1] == s[i - 1] && init[i] == s[i];
    }
  }

  /** An element not below the last one is appended. */
  lemma InsertAfterLargest<T(!new)>(s: seq<T>, x: T, le: (T, T) -> bool)
    requires Total(le) && SortedBy(s, le)
    requires s == [] || le(s[|s| - 1], x)
    ensures InsertBy(s, x, le) == s + [x]
  {
  }

  /** Sorting a list that is already in order leaves it as it is. */
  lemma {:induction false} SortByKeepsSorted<T(!new)>(s: seq<T>, le: (T, T) -> bool)
    requires Total(le)
    requires SortedBy(s, le)
    ensures SortBy(s, le) == s
  {
    if s != [] {
      var init, last := s[..|s| - 1], s[|s| - 1];
      SortedByInit(s, le);
      SortByKeepsSorted(init, le);
      if init != [] {
        assert init[|init| - 1] == s[|s| - 2];
      }
      InsertAfterLargest(init, last, le);
      assert s == init + [last];
    }
  }
}

=== FILE: template2.dfy ===
/** The PDF invoice template: walks the invoice top to bottom, threading a
    (page, y) cursor through the header, billing block, items table, totals,
    optional payment block, contact block and optional signature, and issues
    abstract draw records.  Font metrics, number formatting, the data-URL test
    and image decoding are foreign and enter as `Services`. */
module Template2 {
  import opened Base
  import opened Pdf
  import opened PageHelper
  import opened ImageHelper
  import opened Invoice

  const Margin: real := 50.0
  const LineHeight: real := 15.0
  const ContentWidth: real := LetterWidth - Margin * 2.0
  /** The baseline at the top margin. */
  const Top: real := LetterHeight - Margin
  /** The lowest baseline a draw that follows a pagination check can get. */
  const PageFloor: real := Margin + BottomBuffer
  const SignatureWidth: real := 120.0

  /** The foreign functions the template calls. */
  datatype Services = Services(
    measure: (string, int) -> real,    // Helvetica's widthOfTextAtSize
    formatNumber: real -> string,      // formatNumberWithCommas
    numberToString: real -> string,    // JavaScript number-to-string conversion
    isDataUrl: string -> bool,         // the data-URL test of the helpers library
    embed: Embedder)                   // base64 decoding and pdf-lib embedding

  /** What a section leaves behind: the cursor, and the draws it issued. */
  datatype Output = Output(cur: Cursor, ops: seq<Placed>)

  function At(c: Cursor, op: DrawOp): Placed {
    Placed(c.page, op)
  }

  function Down(c: Cursor, dy: real): Cursor {
    Cursor(c.page, c.y - dy)
  }

  /** The page and height a draw is placed at: a text's baseline, an image's
      bottom edge, a rule's starting height. */
  function Baseline(p: Placed): Cursor {
    if p.op.Line? then Cursor(p.page, p.op.startY) else Cursor(p.page, p.op.y)
  }

  /** `checkForNewPage(pdfDoc, page, yOffset, margin)` with the template's margin. */
  function Check(c: Cursor): (r: Cursor)
    ensures r.y >= PageFloor && r.page >= c.page
  {
    CheckForNewPage(c, Margin)
  }

  /** Every text draw of `ops` sits on a baseline at or above `floor`. */
  ghost predicate TextAbove(ops: seq<Placed>, floor: real) {
    forall i | 0 <= i < |ops| :: ops[i].op.Text? ==> ops[i].op.y >= floor
  }

  /** The draws were issued in page order, on pages from `lo` to `hi`. */
  ghost predicate PagesBetween(ops: seq<Placed>, lo: nat, hi: nat)
    decreases |ops|
  {
    if ops == [] then lo <= hi
    else lo <= ops[0].page && PagesBetween(ops[1..], ops[0].page, hi)
  }

  /** A section's draws lie on the pages from its start cursor's page to its
      end cursor's page, in page order. */
  ghost predicate Within(ops: seq<Placed>, from: Cursor, to: Cursor) {
    PagesBetween(ops, from.page, to.page)
  }

  lemma PagesBetweenWeaken(ops: seq<Placed>, lo: nat, lo': nat, hi: nat)
    requires lo' <= lo && PagesBetween(ops, lo, hi)
    ensures PagesBetween(ops, lo', hi)
  {
  }

  lemma {:induction false} PagesBetweenAppend(a: seq<Placed>, lo: nat, mid: nat, b: seq<Placed>, hi: nat)
    requires PagesBetween(a, lo, mid) && PagesBetween(b, mid, hi)
    ensures PagesBetween(a + b, lo, hi)
    decreases |a|
  {
    if a == [] {
      assert a + b == b;
      PagesBetweenWeaken(b, mid, lo, hi);
    } else {
      assert (a + b)[1..] == a[1..] + b;
      PagesBetweenAppend(a[1..], a[0].page, mid, b, hi);
    }
  }

  /** Draws that all lie on page p are in page order. */
  lemma {:induction false} OnOnePage(ops: seq<Placed>, p: nat)
    requires forall i | 0 <= i < |ops| :: ops[i].page == p
    ensures PagesBetween(ops, p, p)
    decreases |ops|
  {
    if ops != [] {
      assert forall i | 0 <= i < |ops[1..]| :: ops[1..][i] == ops[i + 1];
      OnOnePage(ops[1..], p);
    }
  }

  /** Draws that all go on the page a section ends on lie within it. */
  lemma SegmentWithin(ops: seq<Placed>, from: Cursor, at: Cursor)
    requires from.page <= at.page
    requires forall i | 0 <= i < |ops| :: ops[i].page == at.page
    ensures Within(ops, from, at)
  {
    OnOnePage(ops, at.page);
    PagesBetweenWeaken(ops, at.page, from.page, at.page);
  }

  lemma WithinAppend(a: seq<Placed>, from: Cursor, mid: Cursor, b: seq<Placed>, to: Cursor)
    requires Within(a, from, mid) && Within(b, mid, to)
    ensures Within(a + b, from, to)
  {
    PagesBetweenAppend(a, from.page, mid.page, b, to.page);
  }

  /** The page-order reading of `PagesBetween`: every draw's page is in
      range, and no draw comes after a draw on a later page. */
  lemma {:induction false} PagesBetweenInOrder(ops: seq<Placed>, lo: nat, hi: nat)
    requires PagesBetween(ops, lo, hi)
    ensures lo <= hi && InPageOrder(ops)
    ensures forall i | 0 <= i < |ops| :: lo <= ops[i].page <= hi
    decreases |ops|
  {
    if ops != [] {
      var rest := ops[1..];
      PagesBetweenInOrder(rest, ops[0].page, hi);
      forall i, j | 0 <= i <= j < |ops| ensures ops[i].page <= ops[j].page {
        if i > 0 {
          assert ops[i] == rest[i - 1] && ops[j] == rest[j - 1];
        } else if j > 0 {
          assert ops[j] == rest[j - 1];
        }
      }
      forall i | 0 <= i < |ops| ensures lo <= ops[i].page <= hi {
        if i > 0 {
          assert ops[i] == rest[i - 1];
        }
      }
    }
  }

  lemma TextAboveAppend(a: seq<Placed>, b: seq<Placed>, floor: real)
    requires TextAbove(a, floor) && TextAbove(b, floor)
    ensures TextAbove(a + b, floor)
  {
    forall i | 0 <= i < |a + b| && (a + b)[i].op.Text? ensures (a + b)[i].op.y >= floor {
      if i < |a| { assert (a + b)[i] == a[i]; } else { assert (a + b)[i] == b[i - |a|]; }
    }
  }

  // ---------------------------------------------------------------- columns

  /** The x positions of the items table's columns. */
  datatype Columns = Columns(item: real, qty: real, rate: real, amount: real)

  /** Columns at 0, 50, 65 and 80 percent of the content width, floored. */
  function TableColumns(): (c: Columns)
    ensures c == Columns(50.0, 306.0, 382.0, 459.0)
    ensures c.item < c.qty < c.rate < c.amount
  {
    Columns(Margin,
            Margin + (ContentWidth * 0.5).Floor as real,
            Margin + (ContentWidth * 0.65).Floor as real,
            Margin + (ContentWidth * 0.8).Floor as real)
  }

  /** The width item names and descriptions are fitted to. */
  const NameWidth: real := TableColumns().qty - TableColumns().item - 10.0

  // ----------------------------------------------------------------- header

  /** The logo, when the invoice carries one that embeds. */
  function LogoImage(d: Details, svc: Services): (r: Option<EmbeddedImage>)
    ensures !Truthy(d.invoiceLogo) ==> r.None?
    ensures r.Some? <==> Truthy(d.invoiceLogo) && EmbedImageFromDataUrl(d.invoiceLogo.value, svc.embed).Some?
    ensures r.Some? ==> r == EmbedImageFromDataUrl(d.invoiceLogo.value, svc.embed)
  {
    if Truthy(d.invoiceLogo) then EmbedImageFromDataUrl(d.invoiceLogo.value, svc.embed) else None
  }

  /** The logo space: all zero without a logo. */
  function LogoSpace(logo: Option<EmbeddedImage>): (s: LogoDimensions)
    ensures logo.None? ==> s == LogoDimensions(0.0, 0.0, 0.0, 0.0)
    ensures logo.Some? ==> s == CalculateLogoDimensions(logo.value.width, logo.value.height)
    ensures 0.0 <= s.height <= MaxLogoHeight && 0.0 <= s.reservedHeight <= MaxLogoHeight + LogoPadding
    ensures s.width > 0.0 <==> logo.Some?
    ensures s.height > 0.0 <==> logo.Some?
  {
    match logo
    case None => LogoDimensions(0.0, 0.0, 0.0, 0.0)
    case Some(img) => CalculateLogoDimensions(img.width, img.height)
  }

  /** The logo, scaled into the logo box, in the top-right corner of the
      margins; nothing without a logo. */
  function LogoOps(logo: Option<EmbeddedImage>): (ops: seq<Placed>)
    ensures |ops| == (if logo.Some? then 1 else 0)
    ensures logo.Some? ==>
              var s := LogoSpace(logo);
              && ops[0].page == 0
              && ops[0].op.Image? && ops[0].op.image == logo.value
              && ops[0].op.width == s.width && ops[0].op.height == s.height
              && ops[0].op.x + ops[0].op.width == LetterWidth - Margin
              && ops[0].op.y + ops[0].op.height == Top
  {
    match logo
    case None => []
    case Some(img) =>
      var s := LogoSpace(logo);
      [Placed(0, Image(img, LetterWidth - Margin - s.width, LetterHeight - Margin - s.height, s.width, s.height))]
  }

  /** A sender address line is right-aligned at the right margin, unless that
      would reach into the logo's reserved box, in which case it ends where
      the box begins. */
  function AddressX(lineWidth: real, space: LogoDimensions): (x: real)
    ensures x + lineWidth <= LetterWidth - Margin
    ensures space.width > 0.0 ==> x + space.reservedWidth <= LetterWidth - Margin
    ensures x + lineWidth == LetterWidth - Margin
            || (space.width > 0.0 && x + space.reservedWidth == LetterWidth - Margin)
            || (space.width <= 0.0 && x == LetterWidth - Margin)
  {
    Min(LetterWidth - Margin - lineWidth,
        LetterWidth - Margin - (if space.width > 0.0 then space.reservedWidth else 0.0))
  }

  /** The address lines, one line height apart, from baseline `y` down. */
  function AddressOps(lines: seq<string>, y: real, space: LogoDimensions, svc: Services): (ops: seq<Placed>)
    ensures |ops| == |lines|
    ensures forall i | 0 <= i < |lines| ::
              ops[i] == Placed(0, Text(lines[i], AddressX(svc.measure(lines[i], 12), space),
                                       y - LineHeight * (i as real), 12, Regular))
  {
    if lines == [] then []
    else
      [Placed(0, Text(lines[0], AddressX(svc.measure(lines[0], 12), space), y, 12, Regular))]
      + AddressOps(lines[1..], y - LineHeight, space, svc)
  }

  /** Where the body starts: below a header band of at least 150 points, and
      at least 50 points below the logo's reserved box. */
  function ContentStart(space: LogoDimensions): (y: real)
    ensures y <= Top - 150.0 && y <= Top - space.reservedHeight - 50.0
    ensures y == Top - 150.0 || y == Top - space.reservedHeight - 50.0
  {
    Top - Max(150.0, space.reservedHeight + 50.0)
  }

  /** The "Invoice #" title fitted to a third of the content width from 24
      points, the invoice number, and the sender name fitted to half the
      content width from 18 points, down the left margin. */
  function TitleOps(inv: InvoiceRecord): (ops: seq<Placed>)
    ensures |ops| == 3
    ensures forall i | 0 <= i < 3 ::
              ops[i].page == 0 && ops[i].op.Text? && ops[i].op.x == Margin && ops[i].op.y >= Top - 60.0
    ensures ops[0].op.text == "Invoice #" && ops[0].op.y == Top && ops[0].op.font == Bold
    ensures IsFittedSize("Invoice #", ContentWidth / 3.0, 24, ops[0].op.size)
    ensures ops[1] == Placed(0, Text(inv.details.invoiceNumber, Margin, Top - 25.0, 12, Regular))
    ensures ops[2].op.text == inv.sender.name && ops[2].op.y == Top - 60.0 && ops[2].op.font == Bold
    ensures IsFittedSize(inv.sender.name, ContentWidth / 2.0, 18, ops[2].op.size)
  {
    var title := FitContentToPage("Invoice #", ContentWidth / 3.0, 24);
    var senderName := FitContentToPage(inv.sender.name, ContentWidth / 2.0, 18);
    [Placed(0, Text(title.text, Margin, Top, title.fontSize, Bold)),
     Placed(0, Text(inv.details.invoiceNumber, Margin, Top - 25.0, 12, Regular)),
     Placed(0, Text(senderName.text, Margin, Top - 60.0, senderName.fontSize, Bold))]
  }

  /** The sender address on the right, starting 25 points under the logo's
      reserved box (or under the top margin without a logo), one line apart,
      never reaching past the right margin or into the logo box. */
  function SenderAddress(sender: Sender, space: LogoDimensions, svc: Services): (ops: seq<Placed>)
    ensures |ops| == 3
    ensures var y0 := Top - (if space.height > 0.0 then space.reservedHeight else 0.0) - 25.0;
            forall i | 0 <= i < 3 ::
              && ops[i].page == 0 && ops[i].op.Text?
              && ops[i].op.y == y0 - LineHeight * (i as real)
              && ops[i].op == Text(ops[i].op.text, AddressX(svc.measure(ops[i].op.text, 12), space),
                                   ops[i].op.y, 12, Regular)
              && ops[i].op.x + svc.measure(ops[i].op.text, 12) <= LetterWidth - Margin
              && (space.width > 0.0 ==> ops[i].op.x + space.reservedWidth <= LetterWidth - Margin)
    ensures ops[0].op.text == sender.address
    ensures ops[1].op.text == sender.zipCode + ", " + sender.city
    ensures ops[2].op.text == sender.country
  {
    var y0 := Top - (if space.height > 0.0 then space.reservedHeight else 0.0) - 25.0;
    AddressOps([sender.address, sender.zipCode + ", " + sender.city, sender.country], y0, space, svc)
  }

  /** Logo, title block and sender address, all on the first page; the body
      starts below all of them. */
  function Header(inv: InvoiceRecord, svc: Services): (r: Output)
    ensures var logo := LogoImage(inv.details, svc);
            var space := LogoSpace(logo);
            && r.cur.page == 0
            && r.cur.y <= Top - 150.0
            && r.cur.y <= Top - space.reservedHeight - 50.0
            && (r.cur.y == Top - 150.0 || r.cur.y == Top - space.reservedHeight - 50.0)
            && r.cur.y >= Top - 170.0
            && |r.ops| == (if logo.Some? then 7 else 6)
            && (logo.Some? ==> r.ops[0] == LogoOps(logo)[0])
            && r.ops == LogoOps(logo) + TitleOps(inv) + SenderAddress(inv.sender, space, svc)
    ensures Within(r.ops, Cursor(0, Top), r.cur)
    ensures TextAbove(r.ops, PageFloor)
  {
    var logo := LogoImage(inv.details, svc);
    var space := LogoSpace(logo);
    var logoOps := LogoOps(logo);
    var titleOps := TitleOps(inv);
    var address := SenderAddress(inv.sender, space, svc);
    FirstPageParts(logoOps, titleOps, address);
    Output(Cursor(0, ContentStart(space)), logoOps + titleOps + address)
  }

  /** Three runs of draws on the first page, each above the floor, make one
      such run. */
  lemma FirstPageParts(a: seq<Placed>, b: seq<Placed>, c: seq<Placed>)
    requires forall i | 0 <= i < |a| :: a[i].page == 0
    requires forall i | 0 <= i < |b| :: b[i].page == 0
    requires forall i | 0 <= i < |c| :: c[i].page == 0
    requires TextAbove(a, PageFloor) && TextAbove(b, PageFloor) && TextAbove(c, PageFloor)
    ensures PagesBetween(a + b + c, 0, 0)
    ensures TextAbove(a + b + c, PageFloor)
  {
    OnOnePage(a, 0);
    OnOnePage(b, 0);
    OnOnePage(c, 0);
    PagesBetweenAppend(a, 0, 0, b, 0);
    PagesBetweenAppend(a + b, 0, 0, c, 0);
    TextAboveAppend(a, b, PageFloor);
    TextAboveAppend(a + b, c, PageFloor);
  }

  // ---------------------------------------------------------------- billing

  /** "Bill to:", receiver name and address on the left; invoice and due
      dates on the right, placed relative to where the block ends. */
  function Billing(c: Cursor, inv: InvoiceRecord): (r: Output)
    ensures r.cur == Cursor(c.page, c.y - LineHeight * 6.5)
    ensures |r.ops| == 8 && forall i | 0 <= i < 8 :: r.ops[i].page == c.page && r.ops[i].op.Text?
    ensures TextAbove(r.ops, c.y - LineHeight * 5.5)
    ensures r.ops[0].op.text == "Bill to:" && r.ops[1].op.text == inv.receiver.name
    // The left column: labels and name in bold, the address lines below.
    ensures r.ops[0].op == Text("Bill to:", Margin, c.y - LineHeight * 2.0, 14, Bold)
    ensures r.ops[1].op == Text(inv.receiver.name, Margin, c.y - LineHeight * 3.5, 14, Bold)
    ensures r.ops[2].op == Text(inv.receiver.address, Margin, c.y - LineHeight * 4.5, 12, Regular)
    ensures r.ops[3].op == Text(inv.receiver.city + ", " + inv.receiver.country, Margin,
                                c.y - LineHeight * 5.5, 12, Regular)
    // The right column: bold date labels 200 points, values 100 points in
    // from the right margin.
    ensures forall k | k in {4, 6} ::
              r.ops[k].op.x == LetterWidth - Margin - 200.0 && r.ops[k].op.size == 12 && r.ops[k].op.font == Bold
    ensures forall k | k in {5, 7} ::
              r.ops[k].op.x == LetterWidth - Margin - 100.0 && r.ops[k].op.size == 12 && r.ops[k].op.font == Regular
    ensures r.ops[4].op.text == "Invoice date:" && r.ops[5].op.text == inv.details.invoiceDate
    ensures r.ops[6].op.text == "Due date:" && r.ops[7].op.text == inv.details.dueDate
    // The invoice date sits half a line under "Bill to:", the due date on
    // the receiver name's baseline; each value on its label's baseline.
    ensures r.ops[4].op.y == r.ops[0].op.y - LineHeight / 2.0
    ensures r.ops[6].op.y == r.ops[1].op.y
    ensures r.ops[5].op.y == r.ops[4].op.y && r.ops[7].op.y == r.ops[6].op.y
    ensures Within(r.ops, c, r.cur)
  {
    var billTo := Down(c, LineHeight * 2.0);
    var name := Down(billTo, LineHeight * 1.5);
    var address := Down(name, LineHeight);
    var cityLine := Down(address, LineHeight);
    var end := Down(cityLine, LineHeight);
    var datesY := end.y + LineHeight * 4.0;
    var ops := [
      At(billTo, Text("Bill to:", Margin, billTo.y, 14, Bold)),
      At(name, Text(inv.receiver.name, Margin, name.y, 14, Bold)),
      At(address, Text(inv.receiver.address, Margin, address.y, 12, Regular)),
      At(cityLine, Text(inv.receiver.city + ", " + inv.receiver.country, Margin, cityLine.y, 12, Regular)),
      At(c, Text("Invoice date:", LetterWidth - Margin - 200.0, datesY, 12, Bold)),
      At(c, Text(inv.details.invoiceDate, LetterWidth - Margin - 100.0, datesY, 12, Regular)),
      At(c, Text("Due date:", LetterWidth - Margin - 200.0, datesY - LineHeight, 12, Bold)),
      At(c, Text(inv.details.dueDate, LetterWidth - Margin - 100.0, datesY - LineHeight, 12, Regular))];
    OnOnePage(ops, c.page);
    Output(end, ops)
  }

  // ------------------------------------------------------------ items table

  /** The checked line an item row draws its quantity, rate and total on: the
      name's line, or the description's line for a described item.  It lies
      on a later page or not above the row's start, and above the floor. */
  function ValueLine(start: Cursor, item: LineItem): (v: Cursor)
    ensures v.page > start.page || (v.page == start.page && v.y <= start.y)
    ensures v.y >= PageFloor
  {
    if Truthy(item.description) then Check(Down(Check(start), LineHeight)) else Check(start)
  }

  /** The draws of one item row started from cursor `start`: the fitted name
      on the checked cursor, the fitted description (when there is one) on
      the checked line below it, then quantity, unit price and the total
      right-aligned in a 100-point slot on the value line, and a rule a line
      under that. */
  ghost predicate IsItemRow(block: seq<Placed>, item: LineItem, start: Cursor, svc: Services) {
    var k := if Truthy(item.description) then 2 else 1;
    var cols := TableColumns();
    var at := Check(start);
    var d := Check(Down(at, LineHeight));
    var v := ValueLine(start, item);
    var totalText := svc.formatNumber(item.total);
    && |block| == k + 4
    && block[0] == Placed(at.page, Text(item.name, cols.item, at.y,
                                        FitContentToPage(item.name, NameWidth, 12).fontSize, Regular))
    && (Truthy(item.description) ==>
          block[1] == Placed(d.page, Text(item.description.value, cols.item, d.y,
                                          FitContentToPage(item.description.value, NameWidth, 10).fontSize, Regular)))
    && block[k] == Placed(v.page, Text(svc.numberToString(item.quantity), cols.qty, v.y, 12, Regular))
    && block[k + 1] == Placed(v.page, Text(svc.formatNumber(item.unitPrice), cols.rate, v.y, 12, Regular))
    && block[k + 2] == Placed(v.page, Text(totalText, cols.amount + (100.0 - svc.measure(totalText, 12)), v.y, 12, Regular))
    && block[k + 3] == Placed(v.page, Line(Margin, v.y - LineHeight, LetterWidth - Margin, v.y - LineHeight))
  }

  /** The body of the items loop: one row per line item; the next row starts
      a line and a half under the value line. */
  function ItemRow(c: Cursor, item: LineItem, svc: Services): (r: Output)
    ensures IsItemRow(r.ops, item, c, svc)
    ensures r.cur == Down(ValueLine(c, item), LineHeight * 1.5)
    ensures TextAbove(r.ops, PageFloor)
    ensures Within(r.ops, c, r.cur)
  {
    var cols := TableColumns();
    var c1 := Check(c);
    var name := FitContentToPage(item.name, NameWidth, 12);
    var nameOp := At(c1, Text(name.text, cols.item, c1.y, name.fontSize, Regular));
    var (c2, descOps) :=
      if Truthy(item.description) then
        var d := Check(Down(c1, LineHeight));
        var desc := FitContentToPage(item.description.value, NameWidth, 10);
        (d, [At(d, Text(desc.text, cols.item, d.y, desc.fontSize, Regular))])
      else (c1, []);
    var totalText := svc.formatNumber(item.total);
    var valueOps := [
      At(c2, Text(svc.numberToString(item.quantity), cols.qty, c2.y, 12, Regular)),
      At(c2, Text(svc.formatNumber(item.unitPrice), cols.rate, c2.y, 12, Regular)),
      At(c2, Text(totalText, cols.amount + (100.0 - svc.measure(totalText, 12)), c2.y, 12, Regular))];
    var c3 := Down(c2, LineHeight * 1.5);
    var rule := At(c3, Line(Margin, c3.y + LineHeight / 2.0, LetterWidth - Margin, c3.y + LineHeight / 2.0));
    SegmentWithin([nameOp], c, c1);
    SegmentWithin(descOps, c1, c2);
    SegmentWithin(valueOps + [rule], c2, c3);
    WithinAppend([nameOp], c, c1, descOps, c2);
    WithinAppend([nameOp] + descOps, c, c2, valueOps + [rule], c3);
    assert [nameOp] + descOps + valueOps + [rule] == [nameOp] + descOps + (valueOps + [rule]);
    Output(c3, [nameOp] + descOps + valueOps + [rule])
  }

  /** The cursors of the items loop: entry i is where row i starts, and the
      last entry is where the loop leaves the cursor.  Each row starts a line
      and a half under the value line of the row before. */
  ghost function RowStarts(c: Cursor, items: seq<LineItem>): (s: seq<Cursor>)
    ensures |s| == |items| + 1 && s[0] == c
    ensures forall i | 0 <= i < |items| :: s[i + 1] == Down(ValueLine(s[i], items[i]), LineHeight * 1.5)
    decreases |items|
  {
    if items == [] then [c]
    else
      var tail := RowStarts(Down(ValueLine(c, items[0]), LineHeight * 1.5), items[1..]);
      var s := [c] + tail;
      assert forall i | 1 <= i < |items| :: s[i + 1] == tail[i] && s[i] == tail[i - 1] && items[i] == items[1..][i - 1];
      s
  }

  /** The rows of the items table, one block of draws per item. */
  datatype RowsOutput = RowsOutput(cur: Cursor, blocks: seq<seq<Placed>>)

  lemma ItemRowsCons(c: Cursor, items: seq<LineItem>, row: seq<Placed>, rest: seq<seq<Placed>>, svc: Services)
    requires |items| > 0 && |rest| == |items| - 1
    requires IsItemRow(row, items[0], c, svc)
    requires var s := RowStarts(Down(ValueLine(c, items[0]), LineHeight * 1.5), items[1..]);
             forall i | 0 <= i < |rest| :: IsItemRow(rest[i], items[1..][i], s[i], svc)
    ensures forall i | 0 <= i < |items| :: IsItemRow(([row] + rest)[i], items[i], RowStarts(c, items)[i], svc)
  {
    var s := RowStarts(Down(ValueLine(c, items[0]), LineHeight * 1.5), items[1..]);
    assert RowStarts(c, items) == [c] + s;
    forall i | 0 <= i < |items| ensures IsItemRow(([row] + rest)[i], items[i], RowStarts(c, items)[i], svc) {
      if i > 0 {
        assert ([row] + rest)[i] == rest[i - 1] && items[i] == items[1..][i - 1];
        assert RowStarts(c, items)[i] == s[i - 1];
      }
    }
  }

  /** The items loop: block i is item i's row, started from the loop's i-th
      cursor; the loop ends on the last one. */
  function ItemRows(c: Cursor, items: seq<LineItem>, svc: Services): (r: RowsOutput)
    ensures |r.blocks| == |items|
    ensures forall i | 0 <= i < |items| :: IsItemRow(r.blocks[i], items[i], RowStarts(c, items)[i], svc)
    ensures r.cur == RowStarts(c, items)[|items|]
    ensures Within(Join(r.blocks), c, r.cur)
    ensures TextAbove(Join(r.blocks), PageFloor)
    decreases |items|
  {
    if items == [] then RowsOutput(c, [])
    else
      var row := ItemRow(c, items[0], svc);
      var rest := ItemRows(row.cur, items[1..], svc);
      JoinCons(row.ops, rest.blocks);
      WithinAppend(row.ops, c, row.cur, Join(rest.blocks), rest.cur);
      TextAboveAppend(row.ops, Join(rest.blocks), PageFloor);
      ItemRowsCons(c, items, row.ops, rest.blocks, svc);
      assert RowStarts(c, items) == [c] + RowStarts(row.cur, items[1..]);
      RowsOutput(rest.cur, [row.ops] + rest.blocks)
  }

  /** The four column headers on one baseline, and a rule half a line under
      them. */
  function TableHead(top: Cursor): (head: seq<Placed>)
    ensures var cols := TableColumns();
            && |head| == 5
            && head[0] == Placed(top.page, Text("Item", cols.item, top.y, 12, Bold))
            && head[1] == Placed(top.page, Text("Qty", cols.qty, top.y, 12, Bold))
            && head[2] == Placed(top.page, Text("Rate", cols.rate, top.y, 12, Bold))
            && head[3] == Placed(top.page, Text("Amount", cols.amount, top.y, 12, Bold))
            && head[4] == Placed(top.page, Line(Margin, top.y - LineHeight / 2.0, LetterWidth - Margin, top.y - LineHeight / 2.0))
    ensures TextAbove(head, top.y)
  {
    var cols := TableColumns();
    [At(top, Text("Item", cols.item, top.y, 12, Bold)),
     At(top, Text("Qty", cols.qty, top.y, 12, Bold)),
     At(top, Text("Rate", cols.rate, top.y, 12, Bold)),
     At(top, Text("Amount", cols.amount, top.y, 12, Bold)),
     At(top, Line(Margin, top.y - LineHeight / 2.0, LetterWidth - Margin, top.y - LineHeight / 2.0))]
  }

  /** Column headers and their rule 4 lines down, then the item rows. */
  function ItemsTable(c: Cursor, items: seq<LineItem>, svc: Services): (r: Output)
    ensures |r.ops| >= 5 && r.ops[..5] == TableHead(Down(c, LineHeight * 4.0))
    ensures var rows := ItemRows(Down(c, LineHeight * 5.5), items, svc);
            r.ops[5..] == Join(rows.blocks) && r.cur == rows.cur
    ensures Within(r.ops, c, r.cur)
    ensures c.y - LineHeight * 4.0 >= PageFloor ==> TextAbove(r.ops, PageFloor)
  {
    var top := Down(c, LineHeight * 4.0);
    var head := TableHead(top);
    var rows := ItemRows(Down(top, LineHeight * 1.5), items, svc);
    var body := Join(rows.blocks);
    assert Down(top, LineHeight * 1.5) == Down(c, LineHeight * 5.5);
    SegmentWithin(head, c, top);
    WithinAppend(head, c, top, body, rows.cur);
    assert c.y - LineHeight * 4.0 >= PageFloor ==> TextAbove(head + body, PageFloor) by {
      if c.y - LineHeight * 4.0 >= PageFloor {
        TextAboveAppend(head, body, PageFloor);
      }
    }
    assert (head + body)[..5] == head && (head + body)[5..] == body;
    Output(rows.cur, head + body)
  }

  // -------------------------------------------------------- label/value rows

  datatype Row = Row(caption: string, value: string)

  /** Totals rows put the label at the rate column and right-align the value
      in the amount slot; payment rows use fixed offsets from the margin. */
  datatype RowStyle = TotalsStyle | PaymentStyle

  function LabelX(style: RowStyle): real {
    match style
    case TotalsStyle => TableColumns().rate
    case PaymentStyle => Margin
  }

  function ValueX(style: RowStyle, value: string, svc: Services): real {
    match style
    case TotalsStyle => TableColumns().amount + (100.0 - svc.measure(value, 12))
    case PaymentStyle => Margin + 120.0
  }

  /** `cap` and `value` draw `row` on one baseline at or above the floor. */
  ghost predicate DrawsRow(cap: Placed, value: Placed, row: Row, style: RowStyle, svc: Services) {
    && cap.op.Text?
    && cap.op == Text(row.caption, LabelX(style), cap.op.y, 12, Bold)
    && cap.op.y >= PageFloor
    && value == Placed(cap.page, Text(row.value, ValueX(style, row.value, svc), cap.op.y, 12, Regular))
  }

  /** `ops` draws `rows` in order, two draws per row. */
  ghost predicate DrawsRows(ops: seq<Placed>, rows: seq<Row>, style: RowStyle, svc: Services) {
    && |ops| == 2 * |rows|
    && forall i | 0 <= i < |rows| :: DrawsRow(ops[2 * i], ops[2 * i + 1], rows[i], style, svc)
  }

  lemma DrawsRowsCons(first: seq<Placed>, rest: seq<Placed>, rows: seq<Row>, style: RowStyle, svc: Services)
    requires |rows| > 0 && |first| == 2
    requires DrawsRow(first[0], first[1], rows[0], style, svc)
    requires DrawsRows(rest, rows[1..], style, svc)
    ensures DrawsRows(first + rest, rows, style, svc)
  {
    var ops := first + rest;
    forall i | 0 <= i < |rows| ensures DrawsRow(ops[2 * i], ops[2 * i + 1], rows[i], style, svc) {
      if i > 0 {
        assert ops[2 * i] == rest[2 * (i - 1)] && ops[2 * i + 1] == rest[2 * (i - 1) + 1];
        assert rows[i] == rows[1..][i - 1];
      }
    }
  }

  /** Where the rows of `ops` (two draws each, the label first) are placed:
      the first label on the checked cursor `from`, each later label on the
      checked cursor a line under the label before it; `to` is a line under
      the last label. */
  ghost predicate RowsStacked(ops: seq<Placed>, n: nat, from: Cursor, to: Cursor) {
    && |ops| == 2 * n
    && (n == 0 ==> to == from)
    && (n > 0 ==> Baseline(ops[0]) == Check(from) && to == Down(Baseline(ops[2 * n - 2]), LineHeight))
    && forall i | 0 < i < n :: Baseline(ops[2 * i]) == Check(Down(Baseline(ops[2 * i - 2]), LineHeight))
  }

  lemma RowsStackedCons(first: seq<Placed>, rest: seq<Placed>, n: nat, from: Cursor, to: Cursor)
    requires n > 0 && |first| == 2 && Baseline(first[0]) == Check(from)
    requires RowsStacked(rest, n - 1, Down(Baseline(first[0]), LineHeight), to)
    ensures RowsStacked(first + rest, n, from, to)
  {
    var ops := first + rest;
    forall i | 0 < i < n ensures Baseline(ops[2 * i]) == Check(Down(Baseline(ops[2 * i - 2]), LineHeight)) {
      assert ops[2 * i] == rest[2 * (i - 1)];
      if i > 1 {
        assert ops[2 * i - 2] == rest[2 * (i - 1) - 2];
      }
    }
    if n > 1 {
      assert ops[2 * n - 2] == rest[2 * (n - 1) - 2];
    }
  }

  /** Each row: a pagination check, the label, the value, one line down. */
  function DrawRows(c: Cursor, rows: seq<Row>, style: RowStyle, svc: Services): (r: Output)
    ensures DrawsRows(r.ops, rows, style, svc)
    ensures RowsStacked(r.ops, |rows|, c, r.cur)
    ensures Within(r.ops, c, r.cur)
    ensures TextAbove(r.ops, PageFloor)
    decreases |rows|
  {
    if rows == [] then Output(c, [])
    else
      var at := Check(c);
      var first := [
        At(at, Text(rows[0].caption, LabelX(style), at.y, 12, Bold)),
        At(at, Text(rows[0].value, ValueX(style, rows[0].value, svc), at.y, 12, Regular))];
      var rest := DrawRows(Down(at, LineHeight), rows[1..], style, svc);
      WithinAppend(first, c, Down(at, LineHeight), rest.ops, rest.cur);
      TextAboveAppend(first, rest.ops, PageFloor);
      DrawsRowsCons(first, rest.ops, rows, style, svc);
      RowsStackedCons(first, rest.ops, |rows|, c, rest.cur);
      Output(rest.cur, first + rest.ops)
  }

  // ----------------------------------------------------------------- totals

  /** The displayed value of a discount, tax or shipping entry. */
  function ChargeText(c: Charge, svc: Services): (r: string)
    ensures c.kind == Percentage ==>
              |r| > 0 && r[|r| - 1] == '%' && r[..|r| - 1] == svc.numberToString(c.amount)
    ensures c.kind == Amount ==> r == svc.formatNumber(c.amount)
  {
    if c.kind == Percentage then svc.numberToString(c.amount) + "%" else svc.formatNumber(c.amount)
  }

  function ChargeRow(caption: string, c: Option<Charge>, svc: Services): seq<Row> {
    if Applies(c) then [Row(caption, ChargeText(c.value, svc))] else []
  }

  /** How many of discount, tax and shipping are present and nonzero. */
  function ChargeCount(d: Details): nat {
    (if Applies(d.discountDetails) then 1 else 0)
    + (if Applies(d.taxDetails) then 1 else 0)
    + (if Applies(d.shippingDetails) then 1 else 0)
  }

  /** The entry a conditional totals label reports. */
  function ChargeOf(d: Details, caption: string): Option<Charge> {
    if caption == "Discount:" then d.discountDetails
    else if caption == "Tax:" then d.taxDetails
    else if caption == "Shipping:" then d.shippingDetails
    else None
  }

  /** The position of a conditional totals label among discount, tax and
      shipping. */
  function ChargeRank(caption: string): nat {
    if caption == "Discount:" then 0 else if caption == "Tax:" then 1 else 2
  }

  predicate HasCaption(rows: seq<Row>, caption: string) {
    exists i | 0 <= i < |rows| :: rows[i].caption == caption
  }

  /** Each conditional label reports its own entry and has its own rank. */
  lemma ChargeCaptionsAreDistinct(d: Details)
    ensures ChargeOf(d, "Discount:") == d.discountDetails && ChargeRank("Discount:") == 0
    ensures ChargeOf(d, "Tax:") == d.taxDetails && ChargeRank("Tax:") == 1
    ensures ChargeOf(d, "Shipping:") == d.shippingDetails && ChargeRank("Shipping:") == 2
  {
    assert "Tax:"[0] == 'T' && "Discount:"[0] == 'D' && "Shipping:"[0] == 'S';
  }

  /** The applicable charges, in the order discount, tax, shipping. */
  function ChargeRows(d: Details, svc: Services): (rows: seq<Row>)
    ensures |rows| == ChargeCount(d)
    ensures forall i | 0 <= i < |rows| ::
              Applies(ChargeOf(d, rows[i].caption))
              && rows[i].value == ChargeText(ChargeOf(d, rows[i].caption).value, svc)
    ensures forall i, j | 0 <= i < j < |rows| :: ChargeRank(rows[i].caption) < ChargeRank(rows[j].caption)
    ensures Applies(d.discountDetails) <==> HasCaption(rows, "Discount:")
    ensures Applies(d.taxDetails) <==> HasCaption(rows, "Tax:")
    ensures Applies(d.shippingDetails) <==> HasCaption(rows, "Shipping:")
  {
    var disc := ChargeRow("Discount:", d.discountDetails, svc);
    var tax := ChargeRow("Tax:", d.taxDetails, svc);
    var ship := ChargeRow("Shipping:", d.shippingDetails, svc);
    ChargeCaptionsAreDistinct(d);
    ChargeRowsCases(d, svc, disc, tax, ship);
    disc + tax + ship
  }

  /** The case analysis behind `ChargeRows`: which of the three entries
      apply fixes the rows exactly. */
  lemma ChargeRowsCases(d: Details, svc: Services, disc: seq<Row>, tax: seq<Row>, ship: seq<Row>)
    requires disc == ChargeRow("Discount:", d.discountDetails, svc)
    requires tax == ChargeRow("Tax:", d.taxDetails, svc)
    requires ship == ChargeRow("Shipping:", d.shippingDetails, svc)
    ensures var rows := disc + tax + ship;
      && |rows| == ChargeCount(d)
      && (forall i | 0 <= i < |rows| ::
            Applies(ChargeOf(d, rows[i].caption))
            && rows[i].value == ChargeText(ChargeOf(d, rows[i].caption).value, svc))
      && (forall i, j | 0 <= i < j < |rows| :: ChargeRank(rows[i].caption) < ChargeRank(rows[j].caption))
      && (Applies(d.discountDetails) <==> HasCaption(rows, "Discount:"))
      && (Applies(d.taxDetails) <==> HasCaption(rows, "Tax:"))
      && (Applies(d.shippingDetails) <==> HasCaption(rows, "Shipping:"))
  {
    ChargeCaptionsAreDistinct(d);
    var rows := disc + tax + ship;
    var k1 := |disc|;
    var k2 := |disc| + |tax|;
    assert Applies(d.discountDetails) ==> rows[0].caption == "Discount:";
    assert Applies(d.taxDetails) ==> rows[k1].caption == "Tax:";
    assert Applies(d.shippingDetails) ==> rows[k2].caption == "Shipping:";
    forall i | 0 <= i < |rows|
      ensures ChargeRank(rows[i].caption) == (if i < k1 then 0 else if i < k2 then 1 else 2)
      ensures ChargeOf(d, rows[i].caption) ==
                (if i < k1 then d.discountDetails else if i < k2 then d.taxDetails else d.shippingDetails)
    {
      if i < k1 { assert rows[i] == disc[i]; }
      else if i < k2 { assert rows[i] == tax[i - k1]; }
      else { assert rows[i] == ship[i - k2]; }
    }
  }

  /** Rows around `mid` whose captions differ from `caption` do not change
      whether it is present. */
  lemma HasCaptionBetween(first: Row, mid: seq<Row>, last: Row, caption: string)
    requires first.caption != caption && last.caption != caption
    ensures HasCaption([first] + mid + [last], caption) <==> HasCaption(mid, caption)
  {
    var rows := [first] + mid + [last];
    if HasCaption(mid, caption) {
      var i :| 0 <= i < |mid| && mid[i].caption == caption;
      assert rows[i + 1] == mid[i];
    }
    if HasCaption(rows, caption) {
      var i :| 0 <= i < |rows| && rows[i].caption == caption;
      assert mid[i - 1] == rows[i];
    }
  }

  lemma FixedCaptionsAreNotCharges()
    ensures "Subtotal:" != "Discount:" && "Subtotal:" != "Tax:" && "Subtotal:" != "Shipping:"
    ensures "Total:" != "Discount:" && "Total:" != "Tax:" && "Total:" != "Shipping:"
  {
    assert "Subtotal:"[0] == 'S' && "Discount:"[0] == 'D' && "Tax:"[0] == 'T';
    assert "Subtotal:"[1] == 'u' && "Shipping:"[1] == 'h';
    assert "Total:"[0] == 'T' && "Shipping:"[0] == 'S';
    assert |"Total:"| != |"Tax:"|;
  }

  /** Subtotal, the applicable charges in the order discount, tax, shipping,
      and Total; only the Total value carries the currency code. */
  function TotalsRows(d: Details, svc: Services): (rows: seq<Row>)
    ensures |rows| == 2 + ChargeCount(d)
    ensures rows[0] == Row("Subtotal:", svc.formatNumber(d.subTotal))
    ensures rows[|rows| - 1] == Row("Total:", svc.formatNumber(d.totalAmount) + " " + d.currency)
    ensures forall i | 0 < i < |rows| - 1 ::
              Applies(ChargeOf(d, rows[i].caption))
              && rows[i].value == ChargeText(ChargeOf(d, rows[i].caption).value, svc)
    ensures Applies(d.discountDetails) <==> HasCaption(rows, "Discount:")
    ensures Applies(d.taxDetails) <==> HasCaption(rows, "Tax:")
    ensures Applies(d.shippingDetails) <==> HasCaption(rows, "Shipping:")
    ensures forall i, j | 0 < i < j < |rows| - 1 :: ChargeRank(rows[i].caption) < ChargeRank(rows[j].caption)
  {
    var first := Row("Subtotal:", svc.formatNumber(d.subTotal));
    var last := Row("Total:", svc.formatNumber(d.totalAmount) + " " + d.currency);
    var charges := ChargeRows(d, svc);
    FixedCaptionsAreNotCharges();
    HasCaptionBetween(first, charges, last, "Discount:");
    HasCaptionBetween(first, charges, last, "Tax:");
    HasCaptionBetween(first, charges, last, "Shipping:");
    ChargesBetween(first, charges, last, d, svc);
    [first] + charges + [last]
  }

  /** The charge rows keep their entries and their order when framed by
      two more rows. */
  lemma ChargesBetween(first: Row, charges: seq<Row>, last: Row, d: Details, svc: Services)
    requires charges == ChargeRows(d, svc)
    ensures var rows := [first] + charges + [last];
      && (forall i | 0 < i < |rows| - 1 ::
            Applies(ChargeOf(d, rows[i].caption))
            && rows[i].value == ChargeText(ChargeOf(d, rows[i].caption).value, svc))
      && (forall i, j | 0 < i < j < |rows| - 1 :: ChargeRank(rows[i].caption) < ChargeRank(rows[j].caption))
  {
    var rows := [first] + charges + [last];
    forall i | 0 < i < |rows| - 1 ensures rows[i] == charges[i - 1] {
    }
  }

  /** Two lines down, a pagination check, then the totals rows. */
  function TotalsSection(c: Cursor, d: Details, svc: Services): (r: Output)
    ensures DrawsRows(r.ops, TotalsRows(d, svc), TotalsStyle, svc)
    ensures RowsStacked(r.ops, |TotalsRows(d, svc)|, Check(Down(c, LineHeight * 2.0)), r.cur)
    ensures Within(r.ops, c, r.cur)
    ensures TextAbove(r.ops, PageFloor)
  {
    var start := Check(Down(c, LineHeight * 2.0));
    var r := DrawRows(start, TotalsRows(d, svc), TotalsStyle, svc);
    WithinAppend([], c, start, r.ops, r.cur);
    r
  }

  // ---------------------------------------------------------------- payment

  /** The label/value lines of the payment block. */
  function PaymentRows(p: PaymentInformation): (rows: seq<Row>)
    ensures p.BankTransfer? ==>
              rows == [Row("Bank:", p.bankName), Row("Account Name:", p.accountName),
                       Row("Account Number:", p.accountNumber)]
    ensures p.Stellar? ==>
              && |rows| == (if Truthy(p.memo) then 4 else 3)
              && rows[0] == Row("Network:", "Stellar")
              && rows[1] == Row("Public Key:", p.publicKey)
              && (Truthy(p.memo) ==> rows[2] == Row("Memo:", p.memo.value))
              && rows[|rows| - 1] == Row("Currency:", p.currency)
  {
    match p
    case BankTransfer(bank, name, number) =>
      [Row("Bank:", bank), Row("Account Name:", name), Row("Account Number:", number)]
    case Stellar(key, memo, currency) =>
      [Row("Network:", "Stellar"), Row("Public Key:", key)]
      + (if Truthy(memo) then [Row("Memo:", memo.value)] else [])
      + [Row("Currency:", currency)]
  }

  /** Absent without payment information; otherwise a checked heading and
      the payment rows. */
  function PaymentSection(c: Cursor, payment: Option<PaymentInformation>, svc: Services): (r: Output)
    ensures payment.None? ==> r == Output(c, [])
    ensures payment.Some? ==>
              var rows := PaymentRows(payment.value);
              && |r.ops| >= 1
              && r.ops[0].op.Text? && r.ops[0].op.text == "Payment Information:"
              && r.ops[0].op == Text("Payment Information:", Margin, r.ops[0].op.y, 14, Bold)
              && DrawsRows(r.ops[1..], rows, PaymentStyle, svc)
              && Baseline(r.ops[0]) == Check(Down(c, LineHeight * 2.0))
              && RowsStacked(r.ops[1..], |rows|, Down(Baseline(r.ops[0]), LineHeight), r.cur)
    ensures Within(r.ops, c, r.cur)
    ensures TextAbove(r.ops, PageFloor)
  {
    match payment
    case None => Output(c, [])
    case Some(p) =>
      var at := Check(Down(c, LineHeight * 2.0));
      var heading := [At(at, Text("Payment Information:", Margin, at.y, 14, Bold))];
      var rows := DrawRows(Down(at, LineHeight), PaymentRows(p), PaymentStyle, svc);
      WithinAppend(heading, c, Down(at, LineHeight), rows.ops, rows.cur);
      TextAboveAppend(heading, rows.ops, PageFloor);
      assert (heading + rows.ops)[1..] == rows.ops;
      Output(rows.cur, heading + rows.ops)
  }

  // ---------------------------------------------------------------- contact

  /** Where single lines are placed: the first on the checked cursor `from`,
      each later one on the checked cursor a line under the one before; `to`
      is a line under the last. */
  ghost predicate LinesStacked(ops: seq<Placed>, from: Cursor, to: Cursor) {
    && (ops == [] ==> to == from)
    && (ops != [] ==> Baseline(ops[0]) == Check(from) && to == Down(Baseline(ops[|ops| - 1]), LineHeight))
    && forall i | 0 < i < |ops| :: Baseline(ops[i]) == Check(Down(Baseline(ops[i - 1]), LineHeight))
  }

  lemma LinesStackedCons(first: Placed, rest: seq<Placed>, from: Cursor, to: Cursor)
    requires Baseline(first) == Check(from)
    requires LinesStacked(rest, Down(Baseline(first), LineHeight), to)
    ensures LinesStacked([first] + rest, from, to)
  {
    var ops := [first] + rest;
    forall i | 0 < i < |ops| ensures Baseline(ops[i]) == Check(Down(Baseline(ops[i - 1]), LineHeight)) {
      assert ops[i] == rest[i - 1];
      if i > 1 {
        assert ops[i - 1] == rest[i - 2];
      }
    }
    if rest != [] {
      assert ops[|ops| - 1] == rest[|rest| - 1];
    }
  }

  /** Single checked text lines, one line height apart. */
  function DrawLines(c: Cursor, lines: seq<string>): (r: Output)
    ensures |r.ops| == |lines|
    ensures forall i | 0 <= i < |lines| ::
              r.ops[i].op.Text? && r.ops[i].op == Text(lines[i], Margin, r.ops[i].op.y, 12, Regular)
    ensures LinesStacked(r.ops, c, r.cur)
    ensures Within(r.ops, c, r.cur)
    ensures TextAbove(r.ops, PageFloor)
    decreases |lines|
  {
    if lines == [] then Output(c, [])
    else
      var at := Check(c);
      var first := At(at, Text(lines[0], Margin, at.y, 12, Regular));
      var rest := DrawLines(Down(at, LineHeight), lines[1..]);
      WithinAppend([first], c, Down(at, LineHeight), rest.ops, rest.cur);
      TextAboveAppend([first], rest.ops, PageFloor);
      LinesStackedCons(first, rest.ops, c, rest.cur);
      Output(rest.cur, [first] + rest.ops)
  }

  /** The contact block: a checked heading, then e-mail and phone. */
  function ContactSection(c: Cursor, sender: Sender): (r: Output)
    ensures |r.ops| == 3
    ensures r.ops[0].op.Text? && r.ops[0].op.text == "Contact Information:"
    ensures r.ops[0].op == Text("Contact Information:", Margin, r.ops[0].op.y, 12, Bold)
    ensures forall i | 1 <= i < 3 ::
              r.ops[i].op.Text? && r.ops[i].op == Text(r.ops[i].op.text, Margin, r.ops[i].op.y, 12, Regular)
    ensures r.ops[1].op.Text? && r.ops[1].op.text == sender.email
    ensures r.ops[2].op.Text? && r.ops[2].op.text == sender.phone
    ensures Baseline(r.ops[0]) == Check(Down(c, LineHeight * 2.0))
    ensures LinesStacked(r.ops[1..], Down(Baseline(r.ops[0]), LineHeight), r.cur)
    ensures Within(r.ops, c, r.cur)
    ensures TextAbove(r.ops, PageFloor)
  {
    var at := Check(Down(c, LineHeight * 2.0));
    var heading := [At(at, Text("Contact Information:", Margin, at.y, 12, Bold))];
    var lines := DrawLines(Down(at, LineHeight), [sender.email, sender.phone]);
    WithinAppend(heading, c, Down(at, LineHeight), lines.ops, lines.cur);
    TextAboveAppend(heading, lines.ops, PageFloor);
    assert (heading + lines.ops)[1..] == lines.ops;
    Output(lines.cur, heading + lines.ops)
  }

  // -------------------------------------------------------------- signature

  /** A signature image is 120 points wide with its aspect ratio kept; it
      gets a fresh page exactly when it would reach within 20 points of the
      bottom margin, and hangs below the cursor. */
  function PlaceSignatureImage(c: Cursor, img: EmbeddedImage): (r: (Cursor, DrawOp))
    ensures r.1.Image? && r.1.image == img && r.1.x == Margin && r.1.width == SignatureWidth
    ensures r.1.height * img.width == img.height * SignatureWidth
    ensures r.0.page == c.page + 1 <==> c.y - r.1.height < Margin + 20.0
    ensures r.0.page == c.page + 1 ==> r.0.y == Top
    ensures r.0.page != c.page + 1 ==> r.0 == c && r.1.y >= Margin + 20.0
    ensures r.1.y == r.0.y - r.1.height
  {
    var h := (img.height / img.width) * SignatureWidth;
    assert h * img.width == img.height * SignatureWidth;
    var at := if c.y - h < Margin + 20.0 then Cursor(c.page + 1, Top) else c;
    (at, Image(img, Margin, at.y - h, SignatureWidth, h))
  }

  /** What a signature leaves under its label, drawn from cursor `c`: the
      text itself at 24 points without fitting when it is not a data URL,
      otherwise the embedded image, or nothing when it does not embed. */
  function SignatureMark(c: Cursor, data: string, svc: Services): (r: Output)
    ensures |r.ops| <= 1
    ensures !svc.isDataUrl(data) ==>
              |r.ops| == 1 && r.ops[0] == Placed(c.page, Text(data, Margin, c.y, 24, Regular))
    ensures svc.isDataUrl(data) ==> (r.ops == [] <==> EmbedImageFromDataUrl(data, svc.embed).None?)
    ensures svc.isDataUrl(data) && r.ops != [] ==>
              r.ops[0].op == PlaceSignatureImage(c, EmbedImageFromDataUrl(data, svc.embed).value).1
    ensures svc.isDataUrl(data) && r.ops != [] ==>
              var placed := PlaceSignatureImage(c, EmbedImageFromDataUrl(data, svc.embed).value);
              r.ops[0] == Placed(placed.0.page, placed.1) && r.cur == placed.0
    ensures !svc.isDataUrl(data) || r.ops == [] ==> r.cur == c
    ensures Within(r.ops, c, r.cur)
    ensures TextAbove(r.ops, c.y)
  {
    if svc.isDataUrl(data) then
      match EmbedImageFromDataUrl(data, svc.embed)
      case None => Output(c, [])
      case Some(img) =>
        var placed := PlaceSignatureImage(c, img);
        Output(placed.0, [At(placed.0, placed.1)])
    else
      Output(c, [At(c, Text(data, Margin, c.y, 24, Regular))])
  }

  /** Every text below the page floor is the signature itself, drawn as
      24-point regular text on the left margin. */
  ghost predicate OnlySignatureBelowFloor(ops: seq<Placed>, sig: Option<Signature>) {
    forall i | 0 <= i < |ops| && ops[i].op.Text? && ops[i].op.y < PageFloor ::
      HasSignature(sig) && ops[i].op == Text(sig.value.data, Margin, ops[i].op.y, 24, Regular)
  }

  /** Skipped without signature data; otherwise a checked "Signature:" label
      with the signature mark one line below it. */
  function SignatureSection(c: Cursor, sig: Option<Signature>, svc: Services): (r: Output)
    ensures !HasSignature(sig) ==> r == Output(c, [])
    ensures HasSignature(sig) ==>
              && |r.ops| >= 1
              && r.ops[0].op.Text? && r.ops[0].op.text == "Signature:" && r.ops[0].op.y >= PageFloor
              && r.ops[0].op == Text("Signature:", Margin, r.ops[0].op.y, 12, Bold)
              && Baseline(r.ops[0]) == Check(Down(c, LineHeight * 2.0))
              && |r.ops| <= 2
    ensures HasSignature(sig) && !svc.isDataUrl(sig.value.data) ==>
              |r.ops| == 2 && r.ops[0].op.Text?
              && r.ops[1] == Placed(r.ops[0].page, Text(sig.value.data, Margin, r.ops[0].op.y - LineHeight, 24, Regular))
    ensures HasSignature(sig) && svc.isDataUrl(sig.value.data) ==>
              (|r.ops| == 1 <==> EmbedImageFromDataUrl(sig.value.data, svc.embed).None?)
    ensures HasSignature(sig) && svc.isDataUrl(sig.value.data) && |r.ops| == 2 ==>
              r.ops[0].op.Text? &&
              r.ops[1].op == PlaceSignatureImage(Cursor(r.ops[0].page, r.ops[0].op.y - LineHeight),
                                                 EmbedImageFromDataUrl(sig.value.data, svc.embed).value).1
    ensures HasSignature(sig) && svc.isDataUrl(sig.value.data) && |r.ops| == 2 ==>
              var placed := PlaceSignatureImage(Down(Baseline(r.ops[0]), LineHeight),
                                                EmbedImageFromDataUrl(sig.value.data, svc.embed).value);
              r.ops[1] == Placed(placed.0.page, placed.1) && r.cur == placed.0
    ensures HasSignature(sig) && (!svc.isDataUrl(sig.value.data) || |r.ops| == 1) ==>
              r.cur == Down(Baseline(r.ops[0]), LineHeight)
    ensures OnlySignatureBelowFloor(r.ops, sig)
    ensures Within(r.ops, c, r.cur)
    ensures TextAbove(r.ops, PageFloor - LineHeight)
  {
    if !HasSignature(sig) then Output(c, [])
    else
      var at := Check(Down(c, LineHeight * 2.0));
      var heading := [At(at, Text("Signature:", Margin, at.y, 12, Bold))];
      var mark := SignatureMark(Down(at, LineHeight), sig.value.data, svc);
      WithinAppend(heading, c, Down(at, LineHeight), mark.ops, mark.cur);
      TextAboveAppend(heading, mark.ops, PageFloor - LineHeight);
      Output(mark.cur, heading + mark.ops)
  }

  // ------------------------------------------------- sections without breaks

  /** Stacked rows whose k-th label is still above the floor have not been
      moved by a check: label k sits k lines under the start. */
  lemma {:induction false} RowsStackedWithoutBreak(ops: seq<Placed>, n: nat, from: Cursor, to: Cursor, k: nat)
    requires RowsStacked(ops, n, from, to) && k < n
    requires from.y - LineHeight * (k as real) >= PageFloor
    ensures Baseline(ops[2 * k]) == Cursor(from.page, from.y - LineHeight * (k as real))
    decreases k
  {
    if k > 0 {
      RowsStackedWithoutBreak(ops, n, from, to, k - 1);
    }
  }

  /** The same for single lines. */
  lemma {:induction false} LinesStackedWithoutBreak(ops: seq<Placed>, from: Cursor, to: Cursor, k: nat)
    requires LinesStacked(ops, from, to) && k < |ops|
    requires from.y - LineHeight * (k as real) >= PageFloor
    ensures Baseline(ops[k]) == Cursor(from.page, from.y - LineHeight * (k as real))
    decreases k
  {
    if k > 0 {
      LinesStackedWithoutBreak(ops, from, to, k - 1);
    }
  }

  /** Stacked rows that never break end one line under the last label. */
  lemma RowsStackedEndWithoutBreak(ops: seq<Placed>, n: nat, from: Cursor, to: Cursor)
    requires RowsStacked(ops, n, from, to)
    requires from.y - LineHeight * ((n - 1) as real) >= PageFloor
    ensures to == Cursor(from.page, from.y - LineHeight * (n as real))
  {
    if n > 0 {
      RowsStackedWithoutBreak(ops, n, from, to, n - 1);
    }
  }

  /** The same for single lines. */
  lemma LinesStackedEndWithoutBreak(ops: seq<Placed>, from: Cursor, to: Cursor)
    requires LinesStacked(ops, from, to)
    requires from.y - LineHeight * ((|ops| - 1) as real) >= PageFloor
    ensures to == Cursor(from.page, from.y - LineHeight * (|ops| as real))
  {
    if |ops| > 0 {
      LinesStackedWithoutBreak(ops, from, to, |ops| - 1);
    }
  }

  /** Label/value rows whose last baseline stays at or above the floor go on
      the starting page, one line height each: row i sits i lines under the
      start. */
  lemma DrawRowsWithoutBreak(c: Cursor, rows: seq<Row>, style: RowStyle, svc: Services)
    requires c.y - LineHeight * ((|rows| - 1) as real) >= PageFloor
    ensures DrawRows(c, rows, style, svc).cur == Cursor(c.page, c.y - LineHeight * (|rows| as real))
    ensures var r := DrawRows(c, rows, style, svc);
            forall i | 0 <= i < |rows| :: Baseline(r.ops[2 * i]) == Cursor(c.page, c.y - LineHeight * (i as real))
  {
    var r := DrawRows(c, rows, style, svc);
    var n := |rows|;
    assert RowsStacked(r.ops, n, c, r.cur);
    forall i | 0 <= i < n ensures Baseline(r.ops[2 * i]) == Cursor(c.page, c.y - LineHeight * (i as real)) {
      RowsStackedWithoutBreak(r.ops, n, c, r.cur, i);
    }
    RowsStackedEndWithoutBreak(r.ops, n, c, r.cur);
  }

  /** The same for single text lines: line i sits i lines under the start. */
  lemma DrawLinesWithoutBreak(c: Cursor, lines: seq<string>)
    requires c.y - LineHeight * ((|lines| - 1) as real) >= PageFloor
    ensures DrawLines(c, lines).cur == Cursor(c.page, c.y - LineHeight * (|lines| as real))
    ensures var r := DrawLines(c, lines);
            forall i | 0 <= i < |lines| :: Baseline(r.ops[i]) == Cursor(c.page, c.y - LineHeight * (i as real))
  {
    var r := DrawLines(c, lines);
    assert LinesStacked(r.ops, c, r.cur) && |r.ops| == |lines|;
    forall i | 0 <= i < |lines| ensures Baseline(r.ops[i]) == Cursor(c.page, c.y - LineHeight * (i as real)) {
      LinesStackedWithoutBreak(r.ops, c, r.cur, i);
    }
    LinesStackedEndWithoutBreak(r.ops, c, r.cur);
  }

  /** Without descriptions, and while the last row's baseline stays above
      the floor, row i starts on the starting page i line-and-a-halfs down. */
  lemma {:induction false} RowStartsWithoutBreak(c: Cursor, items: seq<LineItem>)
    requires forall i | 0 <= i < |items| :: !Truthy(items[i].description)
    requires c.y - LineHeight * 1.5 * ((|items| - 1) as real) >= PageFloor
    ensures forall i | 0 <= i <= |items| ::
              RowStarts(c, items)[i] == Cursor(c.page, c.y - LineHeight * 1.5 * (i as real))
    decreases |items|
  {
    if items != [] {
      var next := Down(c, LineHeight * 1.5);
      assert ValueLine(c, items[0]) == c;
      assert forall i | 0 <= i < |items[1..]| :: items[1..][i] == items[i + 1];
      RowStartsWithoutBreak(next, items[1..]);
      var s := RowStarts(c, items);
      assert s == [c] + RowStarts(next, items[1..]);
      forall i | 1 <= i <= |items| ensures s[i] == Cursor(c.page, c.y - LineHeight * 1.5 * (i as real)) {
        assert s[i] == RowStarts(next, items[1..])[i - 1];
      }
    }
  }

  /** Item rows without descriptions take a line and a half each and stay on
      the starting page while the last row's baseline is above the floor:
      row i's name, quantity, rate and total all sit i line-and-a-halfs under
      the start. */
  lemma ItemRowsWithoutBreak(c: Cursor, items: seq<LineItem>, svc: Services)
    requires forall i | 0 <= i < |items| :: !Truthy(items[i].description)
    requires c.y - LineHeight * 1.5 * ((|items| - 1) as real) >= PageFloor
    ensures ItemRows(c, items, svc).cur == Cursor(c.page, c.y - LineHeight * 1.5 * (|items| as real))
    ensures var r := ItemRows(c, items, svc);
            forall i, j | 0 <= i < |items| && 0 <= j < 4 ::
              Baseline(r.blocks[i][j]) == Cursor(c.page, c.y - LineHeight * 1.5 * (i as real))
  {
    RowStartsWithoutBreak(c, items);
    var r := ItemRows(c, items, svc);
    forall i | 0 <= i < |items|
      ensures forall j | 0 <= j < 4 :: Baseline(r.blocks[i][j]) == Cursor(c.page, c.y - LineHeight * 1.5 * (i as real))
    {
      UndescribedRowBaselines(r.blocks[i], items[i], RowStarts(c, items)[i], svc);
    }
  }

  /** A row of an undescribed item started above the floor draws its name,
      quantity, rate and total on its starting baseline. */
  lemma UndescribedRowBaselines(block: seq<Placed>, item: LineItem, start: Cursor, svc: Services)
    requires IsItemRow(block, item, start, svc) && !Truthy(item.description)
    requires start.y >= PageFloor
    ensures forall j | 0 <= j < 4 :: Baseline(block[j]) == start
  {
    assert Check(start) == start;
  }

  /** Each item row either moves the cursor down by at least a line and a
      half or starts a later page, and leaves the cursor at most a line and a
      half under the floor. */
  lemma {:induction false} ItemRowsAdvance(c: Cursor, items: seq<LineItem>, svc: Services)
    ensures var r := ItemRows(c, items, svc);
            r.cur.page > c.page || r.cur.y <= c.y - LineHeight * 1.5 * (|items| as real)
    ensures |items| > 0 ==> ItemRows(c, items, svc).cur.y >= PageFloor - LineHeight * 1.5
    decreases |items|
  {
    if items != [] {
      var row := ItemRow(c, items[0], svc);
      assert row.cur.page > c.page || row.cur.y <= c.y - LineHeight * 1.5;
      assert row.cur.y >= PageFloor - LineHeight * 1.5;
      ItemRowsAdvance(row.cur, items[1..], svc);
      var rest := ItemRows(row.cur, items[1..], svc);
      PagesBetweenInOrder(Join(rest.blocks), row.cur.page, rest.cur.page);
    }
  }

  /** The totals block stays on the starting page when its last row fits. */
  lemma TotalsWithoutBreak(c: Cursor, d: Details, svc: Services)
    requires c.y - LineHeight * 2.0 - LineHeight * ((1 + ChargeCount(d)) as real) >= PageFloor
    ensures TotalsSection(c, d, svc).cur
            == Cursor(c.page, c.y - LineHeight * 2.0 - LineHeight * ((2 + ChargeCount(d)) as real))
  {
    var start := Down(c, LineHeight * 2.0);
    assert Check(start) == start;
    DrawRowsWithoutBreak(start, TotalsRows(d, svc), TotalsStyle, svc);
  }

  /** The contact block stays on the starting page when the phone line fits. */
  lemma ContactWithoutBreak(c: Cursor, sender: Sender)
    requires c.y - LineHeight * 4.0 >= PageFloor
    ensures ContactSection(c, sender).cur == Cursor(c.page, c.y - LineHeight * 5.0)
  {
    var at := Down(c, LineHeight * 2.0);
    assert Check(at) == at;
    DrawLinesWithoutBreak(Down(at, LineHeight), [sender.email, sender.phone]);
  }

  // --------------------------------------------------------------- document

  /** Header, billing block and items table. */
  function ComposeTop(inv: InvoiceRecord, svc: Services): (r: Output)
    ensures Within(r.ops, Cursor(0, Top), r.cur)
    ensures TextAbove(r.ops, PageFloor)
  {
    var h := Header(inv, svc);
    var b := Billing(h.cur, inv);
    var t := ItemsTable(b.cur, inv.details.items, svc);
    WithinAppend(h.ops, Cursor(0, Top), h.cur, b.ops, b.cur);
    WithinAppend(h.ops + b.ops, Cursor(0, Top), b.cur, t.ops, t.cur);
    TextAboveAppend(h.ops, b.ops, PageFloor);
    TextAboveAppend(h.ops + b.ops, t.ops, PageFloor);
    Output(t.cur, h.ops + b.ops + t.ops)
  }

  /** Totals, payment and contact blocks, from cursor `c`. */
  function ComposeTail(c: Cursor, inv: InvoiceRecord, svc: Services): (r: Output)
    ensures Within(r.ops, c, r.cur)
    ensures TextAbove(r.ops, PageFloor)
  {
    var tot := TotalsSection(c, inv.details, svc);
    var pay := PaymentSection(tot.cur, inv.details.paymentInformation, svc);
    var con := ContactSection(pay.cur, inv.sender);
    WithinAppend(tot.ops, c, tot.cur, pay.ops, pay.cur);
    WithinAppend(tot.ops + pay.ops, c, pay.cur, con.ops, con.cur);
    TextAboveAppend(tot.ops, pay.ops, PageFloor);
    TextAboveAppend(tot.ops + pay.ops, con.ops, PageFloor);
    Output(con.cur, tot.ops + pay.ops + con.ops)
  }

  /** Header through contact block: every text in it sits at or above the
      page floor. */
  function ComposeBody(inv: InvoiceRecord, svc: Services): (r: Output)
    ensures Within(r.ops, Cursor(0, Top), r.cur)
    ensures TextAbove(r.ops, PageFloor)
  {
    var top := ComposeTop(inv, svc);
    var tail := ComposeTail(top.cur, inv, svc);
    WithinAppend(top.ops, Cursor(0, Top), top.cur, tail.ops, tail.cur);
    TextAboveAppend(top.ops, tail.ops, PageFloor);
    Output(tail.cur, top.ops + tail.ops)
  }

  /** The whole draw stream: the body, then the signature block.  Only a text
      signature, drawn a line under its checked label, can sit below the
      page floor, and by at most one line. */
  function Compose(inv: InvoiceRecord, svc: Services): (r: Output)
    ensures Within(r.ops, Cursor(0, Top), r.cur)
    ensures TextAbove(r.ops, PageFloor - LineHeight)
    ensures OnlySignatureBelowFloor(r.ops, inv.details.signature)
  {
    var body := ComposeBody(inv, svc);
    var sig := SignatureSection(body.cur, inv.details.signature, svc);
    WithinAppend(body.ops, Cursor(0, Top), body.cur, sig.ops, sig.cur);
    assert TextAbove(body.ops, PageFloor - LineHeight);
    TextAboveAppend(body.ops, sig.ops, PageFloor - LineHeight);
    SignatureBelowFloor(body.ops, sig.ops, inv.details.signature);
    Output(sig.cur, body.ops + sig.ops)
  }

  /** Of a body above the floor followed by the signature block, only the
      text signature can sit below the floor. */
  lemma SignatureBelowFloor(body: seq<Placed>, sigOps: seq<Placed>, sig: Option<Signature>)
    requires TextAbove(body, PageFloor)
    requires OnlySignatureBelowFloor(sigOps, sig)
    ensures OnlySignatureBelowFloor(body + sigOps, sig)
  {
    var ops := body + sigOps;
    assert forall i | 0 <= i < |body| :: ops[i] == body[i];
    assert forall i | |body| <= i < |ops| :: ops[i] == sigOps[i - |body|];
  }

  /** `generateTemplate2`: the finished document, one page per page started;
      reading its pages in order gives every draw exactly once, in the order
      the template issued it. */
  function GenerateTemplate2(inv: InvoiceRecord, svc: Services): (doc: seq<Page>)
    ensures |doc| == Compose(inv, svc).cur.page + 1
    ensures forall p | 0 <= p < |doc| :: doc[p] == OpsOn(Compose(inv, svc).ops, p)
    ensures forall i | 0 <= i < |Compose(inv, svc).ops| :: Compose(inv, svc).ops[i].page < |doc|
    ensures Join(doc) == Ops(Compose(inv, svc).ops)
  {
    var r := Compose(inv, svc);
    PagesBetweenInOrder(r.ops, 0, r.cur.page);
    PaginateKeepsDrawOrder(r.ops, r.cur.page + 1);
    Paginate(r.ops, r.cur.page + 1)
  }
}

=== FILE: template2_scenarios.dfy ===
/** Whole-document consequences of the template's layout rules. */
module Template2Scenarios {
  import opened Base
  import opened PageHelper
  import opened Invoice
  import opened Template2

  /** An invoice with at most five undescribed items, any discount, tax and
      shipping, no payment information and no signature renders on a single
      page, with or without a logo and whatever the font metrics. */
  lemma ShortInvoiceFitsOnOnePage(inv: InvoiceRecord, svc: Services)
    requires |inv.details.items| <= 5
    requires forall i | 0 <= i < |inv.details.items| :: !Truthy(inv.details.items[i].description)
    requires inv.details.paymentInformation.None?
    requires !HasSignature(inv.details.signature)
    ensures |GenerateTemplate2(inv, svc)| == 1
  {
    ShortItemTableEndsHigh(inv, svc);
    var t := ComposeTop(inv, svc);
    TotalsWithoutBreak(t.cur, inv.details, svc);
    var tot := TotalsSection(t.cur, inv.details, svc);
    var pay := PaymentSection(tot.cur, inv.details.paymentInformation, svc);
    assert pay.cur == tot.cur;
    ContactWithoutBreak(pay.cur, inv.sender);
    assert ComposeTail(t.cur, inv, svc).cur.page == 0;
    assert ComposeBody(inv, svc).cur.page == 0;
    assert Compose(inv, svc).cur.page == 0;
  }

  /** With at most five undescribed items, the items table ends on the first
      page, at most 19.5 lines under the 170-point header band. */
  lemma ShortItemTableEndsHigh(inv: InvoiceRecord, svc: Services)
    requires |inv.details.items| <= 5
    requires forall i | 0 <= i < |inv.details.items| :: !Truthy(inv.details.items[i].description)
    ensures ComposeTop(inv, svc).cur.page == 0
    ensures ComposeTop(inv, svc).cur.y >= Top - 170.0 - LineHeight * 6.5 - LineHeight * 5.5 - LineHeight * 7.5
  {
    var items := inv.details.items;
    var h := Header(inv, svc);
    var b := Billing(h.cur, inv);
    var start := Down(b.cur, LineHeight * 5.5);
    ItemRowsWithoutBreak(start, items, svc);
    var t := ItemsTable(b.cur, items, svc);
    assert t.cur == Cursor(0, start.y - LineHeight * 1.5 * (|items| as real));
    assert ComposeTop(inv, svc).cur == t.cur;
  }

  /** An invoice whose items overflow the first page is rendered on more than
      one page: thirty undescribed items cannot fit on one. */
  lemma LongItemListSpillsOver(inv: InvoiceRecord, svc: Services)
    requires |inv.details.items| == 30
    ensures |GenerateTemplate2(inv, svc)| >= 2
  {
    var items := inv.details.items;
    var h := Header(inv, svc);
    var b := Billing(h.cur, inv);
    ItemRowsAdvance(Down(b.cur, LineHeight * 5.5), items, svc);
    var top := ComposeTop(inv, svc);
    assert top.cur.page >= 1;
    var tail := ComposeTail(top.cur, inv, svc);
    PagesBetweenInOrder(tail.ops, top.cur.page, tail.cur.page);
    var body := ComposeBody(inv, svc);
    var sig := SignatureSection(body.cur, inv.details.signature, svc);
    PagesBetweenInOrder(sig.ops, body.cur.page, sig.cur.page);
  }
}
